=== FILE: README.md ===
# Feature-flag storefront: a Dafny model of its decision logic

This project models the small pure core of a demonstration storefront built around feature flags:

- the two **revalidation endpoints**, which collect a path or tag and a list of them from a JSON payload, trim them, drop empties and duplicates, and either answer 400 or invalidate each target once;
- the **shopping cart**, whose total is a sum of price × quantity and whose quantity update either removes a product's lines or replaces their quantity;
- the **override endpoint**, which reads an encrypted cookie (falling back to `{}`), merges a POSTed object into it, and deletes it;
- the **request interceptor** (`proxy.ts`), which resolves each precompute flag from the override or the flag's decision, serialises the values into a code, and prefixes the code to the path;
- the **flag registry** and the **product catalog**, the static data the rest works on;
- the **toolbar's control logic**: current value, toggle / dropdown / nothing, selected index, local override update, reset enablement.

Each source file is one module (`Targets` holds what the two revalidation routes share; `Json`, `Strings` and `OverrideCookie` hold the JavaScript and cookie semantics several files rely on), and `Consistency` relates the components to each other. Prices are integer cents. Encryption, decryption, code serialisation and the clock are parameters of the functions that use them. The framework's cache calls become a returned list of invalidation events.

The override endpoint falls back to no overrides when decryption fails (app/api/flag-overrides/route.ts:17-22). `proxy.ts:8-10` catches nothing, so there a decryption failure fails the request (`Proxy.ReadOverrides`, `Consistency.DecryptFailureDivergence`). The same holds for a `null` override. The interceptor passes it on as the flag's value, while the toolbar's `??` shows the default instead (`Consistency.NullOverrideDivergence`).

## Model

| member | source | states |
|---|---|---|
| Strings.Trim | app/api/revalidate/path/route.ts:17 | `trim()` yields an infix of its input with no white space or line terminator at either end, and everything cut off on either side is white space |
| Strings.TrimIdempotent | app/api/revalidate/path/route.ts:17 | trimming a trimmed string changes nothing |
| Strings.TrimEmptyIffBlank | app/api/revalidate/path/route.ts:18 | an entry trims to the empty string exactly when it consists only of white space |
| Json.Property | app/api/revalidate/path/route.ts:11-14 | reading a payload field throws exactly for a `null` payload, yields the field of an object, and is `undefined` for every other value |
| Json.StrictEqualsPrimitive | components/FlagsToolbar.tsx:130 | `===` between values from separate parses is symmetric and is equality on non-object values; it never holds when one side is an array or object |
| Json.IndexedObject | app/api/flag-overrides/route.ts:33 | spreading an array or string yields one decimal index key per element, mapped to that element, and no other key |
| Json.Spread | app/api/flag-overrides/route.ts:33 | object spread copies an object's fields, indexes an array or string, and copies nothing from `null`, booleans and numbers |
| Targets.StringsOf | app/api/revalidate/path/route.ts:12-14 | the kept entries are exactly the string entries of the array |
| Targets.StringsOfConcat | app/api/revalidate/path/route.ts:12-16 | string filtering keeps the array's order |
| Targets.Collect | app/api/revalidate/path/route.ts:10-16 | the raw targets are the single field if it is a string, then the string entries of the list field in array order. Non-strings and a non-array list contribute nothing, and a `null` payload throws |
| Targets.IndexOf | app/api/revalidate/path/route.ts:18 | `indexOf` is the first position holding the value, or -1 exactly when it is absent |
| Targets.TrimAll | app/api/revalidate/path/route.ts:17 | one trimmed entry per raw entry, in the same order |
| Targets.FirstOccurrences | app/api/revalidate/path/route.ts:18 | the `indexOf` filter over the first n entries keeps at most n entries. `Targets.FirstOccurrencesSpec` gives the full characterisation |
| Targets.FirstOccurrencesSpec | app/api/revalidate/path/route.ts:18 | the `indexOf` filter keeps exactly the non-empty entries, each once, ordered by first occurrence |
| Targets.FirstOccurrencesOfDistinct | app/api/revalidate/path/route.ts:18 | on distinct non-empty entries the filter keeps everything |
| Targets.Normalize | app/api/revalidate/path/route.ts:16-18 | every result is a non-empty trim of an input, every input with a non-empty trim is present, nothing repeats, order is that of first occurrence |
| Targets.NormalizeIdempotent | app/api/revalidate/path/route.ts:16-18 | normalising a normalised list returns it unchanged |
| Targets.DistinctCountsOnce | app/api/revalidate/path/route.ts:36-38 | a list without repetitions holds each of its entries once |
| RevalidatePath.GetPaths | app/api/revalidate/path/route.ts:10-19 | `getPaths` is the normalisation of the collected `path` and `paths`, free of repetitions, and throws only on `null` |
| RevalidatePath.Accept | app/api/revalidate/path/route.ts:36-46 | the 200 answer revalidates every path with the payload's `type`, in order, and echoes the paths |
| RevalidatePath.Post | app/api/revalidate/path/route.ts:21-56 | invalid or `null` JSON is a 400 "Invalid JSON payload.", an empty path list is a 400 with no revalidation, and 200 happens exactly for a non-empty list |
| RevalidatePath.EachPathRevalidatedOnce | app/api/revalidate/path/route.ts:36-43 | an accepted request revalidates each echoed path exactly once and nothing else |
| RevalidatePath.DuplicatePathsExample | app/api/revalidate/path/route.ts:10-46 | `{paths: ["/a", "/a", " /b "]}` yields exactly `["/a", "/b"]` and a 200 |
| RevalidatePath.EmptyPayloadExample | app/api/revalidate/path/route.ts:26-34 | `{}` yields the 400 answer and revalidates nothing |
| RevalidateTag.GetTags | app/api/revalidate/tag/route.ts:9-18 | `getTags` is the normalisation of the collected `tag` and `tags`, free of repetitions, and throws only on `null` |
| RevalidateTag.Accept | app/api/revalidate/tag/route.ts:35-44 | the 200 answer invalidates every tag with profile "page", in order, and echoes the tags |
| RevalidateTag.Post | app/api/revalidate/tag/route.ts:20-54 | invalid or `null` JSON is a 400, an empty tag list is a 400 that invalidates nothing, and 200 happens exactly for a non-empty list |
| RevalidateTag.EachTagInvalidatedOnce | app/api/revalidate/tag/route.ts:35-43 | an accepted request invalidates each echoed tag exactly once, always with profile "page", and nothing else |
| RevalidateTag.BlankTagsRejected | app/api/revalidate/tag/route.ts:25-33 | blank strings and non-string entries leave nothing, so the answer is 400 and nothing is invalidated |
| Catalog.FindIndex | lib/products.ts:62 | the position found holds the id and no earlier product does; -1 exactly when no product has it |
| Catalog.Find | lib/products.ts:62 | `find` returns the first product with that id, and "not found" exactly when no product has it |
| Catalog.GetProducts | lib/products.ts:6-71 | the catalog is the six declared products, ids "1" to "6" in order, pairwise distinct |
| Catalog.ProductsListing | lib/products.ts:6-71 | `getProducts` returns six products with prices $299.99, $399.99, $89.99, $449.99, $79.99 and $59.99 (in cents) and their declared categories |
| Catalog.GetProductById | lib/products.ts:61-75 | a lookup returns a catalog product with that id, and "not found" exactly when the catalog has none |
| Catalog.FindUnique | lib/products.ts:62 | with distinct ids, looking up a product's id finds that product |
| Catalog.LookupEveryCatalogId | lib/products.ts:6-62 | every catalog id finds the product declared with it |
| Catalog.LookupMiss | lib/products.ts:62 | an id outside the catalog is not found |
| Cart.Total | components/ShoppingCart.tsx:13 | the `reduce` total of an empty cart is 0, and a cart of non-negative prices and quantities never totals below 0 |
| Cart.TotalIsSum | components/ShoppingCart.tsx:13 | the left-fold total equals the plain sum of price × quantity over the lines |
| Cart.TotalConcat | components/ShoppingCart.tsx:13 | the total of two carts side by side is the sum of their totals |
| Cart.TotalAround | components/ShoppingCart.tsx:13 | the total is the totals before and after a line plus that line's price × quantity |
| Cart.RemoveId | components/ShoppingCart.tsx:17 | removing an id that no line has leaves the cart unchanged |
| Cart.RemoveIdMembers | components/ShoppingCart.tsx:17 | removal keeps exactly the lines of other products |
| Cart.RemoveIdConcat | components/ShoppingCart.tsx:17 | removal keeps the remaining lines in order |
| Cart.RemoveIdAt | components/ShoppingCart.tsx:16-17 | when only line k has its id, removing that id deletes exactly line k |
| Cart.SetQuantity | components/ShoppingCart.tsx:19-21 | replacing a quantity keeps the length and every product, sets the quantity of matching lines and leaves other lines unchanged |
| Cart.SetQuantityAt | components/ShoppingCart.tsx:19-21 | when only line k has its id, the update changes line k's quantity and nothing else |
| Cart.TotalAfterReplace | components/ShoppingCart.tsx:13-21 | replacing line k's quantity changes the total by its price times the change in quantity |
| Cart.UpdateQuantity | components/ShoppingCart.tsx:15-23 | a quantity ≤ 0 is the id filter: every line of the product is removed and the others stay in order. A positive quantity keeps the length and replaces only the matching quantities. An absent id changes nothing |
| Cart.Increase | components/ShoppingCart.tsx:48 | "+" from a non-negative quantity gives every line of that product one more and changes nothing else |
| Cart.Decrease | components/ShoppingCart.tsx:40 | "-" at quantity one or below drops the product's lines and keeps the rest in order. Above one, every line of that product gets one less |
| Cart.IncreaseAddsPrice | components/ShoppingCart.tsx:47-53 | "+" raises the line's quantity by one and the total by exactly its price |
| Cart.DecreaseSubtractsPrice | components/ShoppingCart.tsx:39-45 | "-" on a quantity above one lowers it by one and the total by exactly the price |
| Cart.DecreaseLastRemoves | components/ShoppingCart.tsx:39-45 | "-" on a quantity of one deletes that line, keeps the rest in order, and lowers the total by its price |
| Cart.Render | components/ShoppingCart.tsx:28-66 | the Checkout button is shown exactly when the cart is non-empty, with the total beside it and each line's price × quantity |
| Cart.TestCartTotals | components/__tests__/ShoppingCart.test.tsx:35-68 | 2×$50 + 1×$30 totals $130.00, "+" on the first line gives $180.00 and "-" gives $80.00 |
| Cart.SingleItemRemoved | components/__tests__/ShoppingCart.test.tsx:70-103 | "-" on a single line at quantity one empties the cart, which then shows no Checkout button |
| Flags.Keys | lib/flags.ts:31 | the keys of a flag list, one per flag, in order |
| Flags.RegistryDecisions | lib/flags.ts:4-24 | `showNewLayout` decides false and `enablePromoBanner` true, each its default, each offering exactly true then false |
| Flags.RegistryShape | lib/flags.ts:26-31 | the precompute order is `[showNewLayout, enablePromoBanner]` with distinct keys, and the toolbar map holds the same flags under their own keys |
| OverrideCookie.CookieValue | proxy.ts:7 | the cookie value is present exactly when the cookie is set |
| FlagOverrides.CurrentOverrides | app/api/flag-overrides/route.ts:9-23 | a missing or empty cookie, a throwing decryption and a decryption yielding nothing all read as `{}`; otherwise the decrypted object |
| FlagOverrides.Get | app/api/flag-overrides/route.ts:25-28 | GET answers the current overrides and sets no cookie |
| FlagOverrides.Merge | app/api/flag-overrides/route.ts:33 | the merge maps every payload key to the payload's value, keeps every other key, and has the union of both key sets |
| FlagOverrides.Post | app/api/flag-overrides/route.ts:30-47 | POST throws on a non-JSON body, otherwise stores the encrypted merge in the override cookie and changes no other cookie |
| FlagOverrides.Delete | app/api/flag-overrides/route.ts:49-55 | DELETE removes the override cookie and no other |
| FlagOverrides.GetAfterPost | app/api/flag-overrides/route.ts:9-47 | when the stored merge reads back from its cookie, GET after POST returns the earlier overrides with the payload's keys set to its values, and nothing else |
| FlagOverrides.GetAfterUnreadablePost | app/api/flag-overrides/route.ts:13-22 | when the stored cookie does not read back (empty, or its decryption throws or yields nothing), GET after POST answers `{}` |
| FlagOverrides.GetAfterDelete | app/api/flag-overrides/route.ts:9-55 | GET after DELETE returns `{}` |
| FlagOverrides.PostTwice | app/api/flag-overrides/route.ts:30-47 | when both stored merges read back, two POSTs in a row leave the same overrides as one POST of their right-biased merge |
| Proxy.ReadOverrides | proxy.ts:7-10 | a missing or empty cookie and a decryption yielding nothing read as `{}`; a throwing decryption fails the request |
| Proxy.Resolve | proxy.ts:14-15 | a present override wins, even `null`; only a missing key falls back to the decision, so `null` comes out only from a `null` override or decision |
| Proxy.ResolveAll | proxy.ts:12-17 | one value per flag, in order, each the flag's own resolution: a present override (even `null`) wins, otherwise the flag's decision |
| Proxy.ResolveAllLocal | proxy.ts:12-17 | the values depend only on the overrides of the flags' own keys |
| Proxy.RewritePathname | proxy.ts:20-23 | the rewritten path is `/` + code, followed by the original path unless that is `/` |
| Proxy.RewriteRoundTrip | proxy.ts:23 | knowing the code, the rewrite can be undone for every absolute path |
| Proxy.Segment | proxy.ts:23 | a segment is the prefix of the path before its first `/` |
| Proxy.SegmentOfCode | proxy.ts:23 | a code without `/` followed by nothing or a path reads back as the whole code |
| Proxy.CodeIsFirstSegment | proxy.ts:23 | a code without `/` becomes the leading path segment of every rewritten absolute path |
| Proxy.Intercept | proxy.ts:6-26 | a throwing decryption is exactly the failing case; otherwise the path is rewritten with the serialisation of the resolved precompute values |
| Proxy.NoCookieUsesDecisions | proxy.ts:7-18 | without the cookie the values are `[false, true]`, the two decisions in precompute order |
| Proxy.SameResolutionSameCode | proxy.ts:12-18 | requests whose overrides agree on the flag keys are rewritten identically |
| Toolbar.CurrentValue | components/FlagsToolbar.tsx:103 | the current value is the override unless it is missing or `null`, in which case the default |
| Toolbar.OptionsOf | components/FlagsToolbar.tsx:104 | the options sent, or none when the field is missing |
| Toolbar.BooleanToggleValues | components/FlagsToolbar.tsx:105-107 | the toggle case has exactly two boolean options, and two different ones are `true` and `false` |
| Toolbar.FindOption | components/FlagsToolbar.tsx:129-131 | `findIndex` returns the first option strictly equal to the current value, or -1 exactly when none is |
| Toolbar.SelectedIndex | components/FlagsToolbar.tsx:129-135 | the selected index is the first strictly matching option, or 0 when none matches |
| Toolbar.RenderControl | components/FlagsToolbar.tsx:102-157 | a toggle exactly for two boolean options, a dropdown exactly for other non-empty options, nothing exactly for missing or empty options; toggle state and dropdown selection follow the current value |
| Toolbar.ChosenValue | components/FlagsToolbar.tsx:137-140 | a dropdown index yields an option value exactly when it has an option |
| Toolbar.LocalChange | components/FlagsToolbar.tsx:70 | a local change sets only the changed key and keeps every other override |
| Toolbar.ChangeRequest | components/FlagsToolbar.tsx:79 | the posted body holds exactly the changed key and its value |
| Toolbar.OnSelect | components/FlagsToolbar.tsx:136-143 | choosing an index with no option is a no-op, otherwise the option's value is set locally |
| Toolbar.OnToggle | components/FlagsToolbar.tsx:116 | the checkbox sets its key to the new checked state and keeps every other override |
| Toolbar.ResetEnabled | components/FlagsToolbar.tsx:260 | reset is enabled exactly when nothing is loading and some override exists |
| Toolbar.ToggleRoundTrip | components/FlagsToolbar.tsx:103-124 | after a toggle change the toggle shows the new state |
| Toolbar.SelectRoundTrip | components/FlagsToolbar.tsx:128-143 | after choosing a primitive option among distinct ones, the dropdown selects it |
| Consistency.MetadataOf | app/api/flags/route.ts:5-7 | a registry flag reaches the toolbar with its key, default and option values |
| Consistency.NullOverrideDivergence | proxy.ts:14-15 | a `null` override is the interceptor's value for the flag, while the toolbar shows the default |
| Consistency.DecryptFailureDivergence | proxy.ts:8-10 | a throwing decryption reads as `{}` in the override endpoint but fails the interceptor |
| Consistency.ReadsAgree | proxy.ts:7-10 | unless decryption throws, the interceptor and the override endpoint read the same overrides |
| Consistency.ToolbarShowsResolvedValue | components/FlagsToolbar.tsx:103 | apart from `null`, the toolbar shows exactly the value the interceptor resolves |
| Consistency.RegistryTogglesAtDefaults | components/FlagsToolbar.tsx:102-124 | with no overrides `showNewLayout` is an unchecked "Disabled" toggle and `enablePromoBanner` a checked "Enabled" one |
| Consistency.ToolbarChangeMatchesServer | components/FlagsToolbar.tsx:68-80 | when the stored overrides read back, the toolbar's local update equals what the override endpoint then reads for the same change |
| Consistency.ProxySeesPostedOverride | proxy.ts:12-18 | when the stored overrides read back, after the toolbar posts a value for a precompute flag the interceptor resolves that flag to it and the others as before |

## Left out

- Encryption, decryption and code serialisation belong to the flag library. They are function parameters. The only assumption is `OverrideCookie.RoundTripsOn`, and it is made only for the one overrides object a POST stores: its encryption is not the empty string and decrypts back to it. A round trip for every object cannot be assumed, because exact real numbers have no injective encoding as strings. `FlagOverrides.GetAfterUnreadablePost` covers a stored cookie that does not read back. Nothing is assumed about the codes `serialize` produces; the lemmas about path segments state their own condition that the code has no `/`.
- FlagOverrides.Post: assumes encryption always returns a value. In the source `encryptOverrides` is an awaited library call that can reject, for example when `FLAGS_SECRET` is unset, and a rejection would fail the POST. So "throws exactly for a non-JSON body" holds only under that assumption.
- Proxy.Intercept: assumes `serialize` always returns a value. A rejection there would fail the request, so "fails exactly on a throwing decryption" holds only under that assumption.
- FlagOverrides.GetAfterPost: holds only when the stored overrides satisfy `OverrideCookie.RoundTripsOn`. `Consistency.ToolbarChangeMatchesServer`, `Consistency.ProxySeesPostedOverride` and `FlagOverrides.PostTwice` make the same assumption for the objects they store.
- `revalidatePath`, `revalidateTag` and `unstable_cache` are the framework's cache. The routes return the list of invalidation calls they make. The catalog reads return the static list directly, since recomputing it after an invalidation yields the same list.
- The framework's request and response objects are left out. So are cookie attributes (`path`, `sameSite`, `secure`, `httpOnly`) and the interceptor's `matcher` configuration. The cookie jar is a map from name to value.
- `new Date().toISOString()` is a `now` parameter of the revalidation handlers.
- Toolbar I/O and effects are left out: `fetch`, `Promise.all`, the `isMounted` guard, `window.location.reload()`, the loading flag's transitions, and panel expansion. The option text `option.label ?? String(option.value)` is also left out. It needs JavaScript's number-to-string conversion.
- Json.StrictEqualsPrimitive: compares only values from separate parses. The source's `===` holds between an object or array and itself. `handleFlagChange` stores the chosen option's own value (components/FlagsToolbar.tsx:70, 142), so a re-render matches that option by reference. The model does not track references.
- Toolbar.SelectRoundTrip: covered only for string, number and boolean options. For an array or object option the component selects it again by reference, but the model selects index 0. This follows from `Json.StrictEqualsPrimitive`.
- Proxy.RewritePathname: is plain concatenation. Assigning `nextUrl.pathname` also percent-encodes characters such as spaces and resolves dot segments. The model is exact only for codes made of URL path characters. `serialize` is a parameter, so nothing guarantees that.
- Toolbar.RenderControl: an option whose `value` field is missing is not modelled. Option values are always JSON values, so an `undefined` current value never matches one.
- Prices are integer cents, not floating-point dollars. `toFixed(2)` formatting is presentation.
- JSON numbers are exact reals, not doubles. `-0` and `0` are one value, as they are under `===`. Rounding is not modelled, nor the `Infinity` that an out-of-range literal such as `1e400` parses to.
- Strings are sequences of Unicode scalar values, not UTF-16 code units. Two things fall outside the model. A JSON string may hold a lone surrogate (`"\ud800"` parses to one), and the source still trims and echoes such a path or tag. The index keys of a spread string payload are also counted per code unit in the source.
- JavaScript property reads see inherited prototype properties. A payload or override key such as `constructor` would differ. The model reads own fields only, and no key used here is affected.
- Proxy.ResolveAll: `featureFlag()` is the flag's `decide()` result. Both flags here decide a constant. Any request-dependent evaluation inside the flag library is not modelled.
- Cart.IncreaseAddsPrice: stated for a line whose product id no other line shares (`Cart.UniqueAt`). With repeated ids the source updates every line of that id. `Cart.UpdateQuantity` states that general behaviour.
- Cart.DecreaseSubtractsPrice: same unique-id condition as `Cart.IncreaseAddsPrice`.
- Cart.DecreaseLastRemoves: same unique-id condition as `Cart.IncreaseAddsPrice`.
- The page layer's decoding of the code (`getPrecomputed`) and the two layout variants are presentation. So are `ProductCard`, `RenderTimestampBadge`, the layout, the cart page's mock data, and the framework configuration.
- The definitions endpoint only wraps the flag library's `getProviderData`. `Consistency.MetadataOf` assumes that helper passes description, options and default through unchanged.

=== FILE: cart.dfy ===
/** The shopping cart component: its running total and its quantity update. */
module Cart {
  import opened Catalog

  /** A cart line: a product and how many of it. */
  datatype CartItem = CartItem(product: Product, quantity: int)

  /** What one line costs, in cents. */
  function LineTotal(item: CartItem): int {
    item.product.priceCents * item.quantity
  }

  /**
   * `items.reduce((sum, item) => sum + item.price * item.quantity, 0)`, folded from the left. A cart of
   * non-negative prices and quantities never totals below zero.
   */
  function Total(items: seq<CartItem>): (t: int)
    ensures items == [] ==> t == 0
    ensures (forall i :: 0 <= i < |items| ==> items[i].product.priceCents >= 0 && items[i].quantity >= 0) ==> t >= 0
  {
    if items == [] then 0 else Total(items[..|items| - 1]) + LineTotal(items[|items| - 1])
  }

  /** The sum of the line totals, taken from the first line on. */
  function Sum(items: seq<CartItem>): int {
    if items == [] then 0 else LineTotal(items[0]) + Sum(items[1..])
  }

  /** The total of two carts side by side is the sum of their totals. */
  lemma {:induction false} TotalConcat(a: seq<CartItem>, b: seq<CartItem>)
    ensures Total(a + b) == Total(a) + Total(b)
    decreases |b|
  {
    if b == [] {
      assert a + b == a;
    } else {
      var b' := b[..|b| - 1];
      assert (a + b)[..|a + b| - 1] == a + b';
      TotalConcat(a, b');
    }
  }

  /** The left fold is the plain sum of the line totals, whichever end it starts from. */
  lemma {:induction false} TotalIsSum(items: seq<CartItem>)
    ensures Total(items) == Sum(items)
  {
    if items != [] {
      TotalIsSum(items[1..]);
      TotalConcat([items[0]], items[1..]);
      assert [items[0]] + items[1..] == items;
      assert [items[0]][..0] == [];
    }
  }

  /** Line `k` is the only line with its product id. */
  predicate UniqueAt(items: seq<CartItem>, k: nat)
    requires k < |items|
  {
    forall i :: 0 <= i < |items| && i != k ==> items[i].product.id != items[k].product.id
  }

  /** Some line has product id `id`. */
  predicate HasId(items: seq<CartItem>, id: string) {
    exists i :: 0 <= i < |items| && items[i].product.id == id
  }

  /** `items.filter(item => item.id !== id)`: the lines of other products, in their order. */
  function RemoveId(items: seq<CartItem>, id: string): (r: seq<CartItem>)
    ensures !HasId(items, id) ==> r == items
    ensures |r| <= |items|
  {
    if items == [] then []
    else (if items[0].product.id == id then [] else [items[0]]) + RemoveId(items[1..], id)
  }

  /** The filter keeps exactly the lines of other products. */
  lemma {:induction false} RemoveIdMembers(items: seq<CartItem>, id: string)
    ensures forall x :: x in RemoveId(items, id) <==> x in items && x.product.id != id
  {
    if items != [] {
      RemoveIdMembers(items[1..], id);
      assert items == [items[0]] + items[1..];
    }
  }

  /** Filtering each half separately and joining is filtering the whole: the order of kept lines is unchanged. */
  lemma {:induction false} RemoveIdConcat(a: seq<CartItem>, b: seq<CartItem>, id: string)
    ensures RemoveId(a + b, id) == RemoveId(a, id) + RemoveId(b, id)
  {
    if a != [] {
      assert (a + b)[1..] == a[1..] + b;
      RemoveIdConcat(a[1..], b, id);
    } else {
      assert a + b == b;
    }
  }

  /** When line `k` is the only one with its id, removing that id deletes exactly line `k`. */
  lemma {:induction false} RemoveIdAt(items: seq<CartItem>, k: nat)
    requires k < |items| && UniqueAt(items, k)
    ensures RemoveId(items, items[k].product.id) == items[..k] + items[k + 1..]
  {
    var id := items[k].product.id;
    var tail := items[1..];
    if k == 0 {
      assert !HasId(tail, id) by {
        forall i | 0 <= i < |tail| ensures tail[i].product.id != id {
          assert tail[i] == items[i + 1];
        }
      }
    } else {
      assert tail[k - 1] == items[k];
      assert UniqueAt(tail, k - 1) by {
        forall i | 0 <= i < |tail| && i != k - 1 ensures tail[i].product.id != id {
          assert tail[i] == items[i + 1];
        }
      }
      RemoveIdAt(tail, k - 1);
      assert items[..k] == [items[0]] + tail[..k - 1];
      assert items[k + 1..] == tail[k..];
    }
  }

  /** The total of a cart is the totals on either side of line `k` plus that line. */
  lemma TotalAround(items: seq<CartItem>, k: nat)
    requires k < |items|
    ensures Total(items) == Total(items[..k]) + LineTotal(items[k]) + Total(items[k + 1..])
  {
    var pre, suf := items[..k], items[k + 1..];
    assert items == (pre + [items[k]]) + suf;
    TotalConcat(pre + [items[k]], suf);
    TotalConcat(pre, [items[k]]);
    assert [items[k]][..0] == [];
  }

  /** `items.map(item => item.id === id ? { ...item, quantity } : item)`. */
  function SetQuantity(items: seq<CartItem>, id: string, quantity: int): (r: seq<CartItem>)
    ensures |r| == |items|
    ensures forall i :: 0 <= i < |items| ==> r[i].product == items[i].product
    ensures forall i :: 0 <= i < |items| && items[i].product.id == id ==> r[i].quantity == quantity
    ensures forall i :: 0 <= i < |items| && items[i].product.id != id ==> r[i] == items[i]
  {
    seq(|items|, i requires 0 <= i < |items| =>
      if items[i].product.id == id then items[i].(quantity := quantity) else items[i])
  }

  /** When line `k` is the only one with its id, setting its quantity changes only that line. */
  lemma SetQuantityAt(items: seq<CartItem>, k: nat, quantity: int)
    requires k < |items| && UniqueAt(items, k)
    ensures SetQuantity(items, items[k].product.id, quantity) == items[k := items[k].(quantity := quantity)]
  {
  }

  /** Replacing the quantity of line `k` changes the total by its price times the change in quantity. */
  lemma TotalAfterReplace(items: seq<CartItem>, k: nat, quantity: int)
    requires k < |items|
    ensures Total(items[k := items[k].(quantity := quantity)])
      == Total(items) + items[k].product.priceCents * (quantity - items[k].quantity)
  {
    var r := items[k := items[k].(quantity := quantity)];
    assert r[..k] == items[..k];
    assert r[k + 1..] == items[k + 1..];
    TotalAround(items, k);
    TotalAround(r, k);
    LineDifference(items[k].product.priceCents, items[k].quantity, quantity);
  }

  lemma LineDifference(price: int, before: int, after: int)
    ensures price * after == price * before + price * (after - before)
  {
  }

  /**
   * `updateQuantity(id, newQuantity)`: a quantity of zero or less removes every line of that product,
   * keeping the others in order; a positive quantity replaces the quantity of those lines and changes
   * nothing else. An id that is not in the cart leaves it unchanged either way.
   */
  function UpdateQuantity(items: seq<CartItem>, id: string, newQuantity: int): (r: seq<CartItem>)
    ensures !HasId(items, id) ==> r == items
    ensures newQuantity <= 0 ==> !HasId(r, id)
    ensures newQuantity <= 0 ==> forall x :: x in r <==> x in items && x.product.id != id
    ensures newQuantity <= 0 ==> r == RemoveId(items, id)
    ensures newQuantity > 0 ==> |r| == |items|
    ensures newQuantity > 0 ==> forall i :: 0 <= i < |items| ==>
      r[i].product == items[i].product
      && r[i].quantity == (if items[i].product.id == id then newQuantity else items[i].quantity)
  {
    if newQuantity <= 0 then
      var r := RemoveId(items, id);
      RemoveIdMembers(items, id);
      assert !HasId(r, id) by {
        forall i | 0 <= i < |r| ensures r[i].product.id != id {
          assert r[i] in r;
        }
      }
      r
    else SetQuantity(items, id, newQuantity)
  }

  /**
   * The "+" button of line `k`: from a non-negative quantity, every line of that product gets one more and
   * nothing else changes.
   */
  function Increase(items: seq<CartItem>, k: nat): (r: seq<CartItem>)
    requires k < |items|
    ensures items[k].quantity >= 0 ==> |r| == |items| && forall i :: 0 <= i < |items| ==>
      r[i].product == items[i].product
      && r[i].quantity == (if items[i].product.id == items[k].product.id then items[k].quantity + 1 else items[i].quantity)
  {
    UpdateQuantity(items, items[k].product.id, items[k].quantity + 1)
  }

  /**
   * The "-" button of line `k`: at quantity one or below the product's lines are dropped and the others
   * kept in order; above one, every line of that product gets one less and nothing else changes.
   */
  function Decrease(items: seq<CartItem>, k: nat): (r: seq<CartItem>)
    requires k < |items|
    ensures items[k].quantity <= 1 ==> r == RemoveId(items, items[k].product.id) && !HasId(r, items[k].product.id)
    ensures items[k].quantity > 1 ==> |r| == |items| && forall i :: 0 <= i < |items| ==>
      r[i].product == items[i].product
      && r[i].quantity == (if items[i].product.id == items[k].product.id then items[k].quantity - 1 else items[i].quantity)
  {
    UpdateQuantity(items, items[k].product.id, items[k].quantity - 1)
  }

  /** "+" keeps every line and raises the total by exactly that line's price. */
  lemma IncreaseAddsPrice(items: seq<CartItem>, k: nat)
    requires k < |items| && UniqueAt(items, k) && items[k].quantity >= 0
    ensures |Increase(items, k)| == |items|
    ensures Increase(items, k)[k].quantity == items[k].quantity + 1
    ensures Total(Increase(items, k)) == Total(items) + items[k].product.priceCents
  {
    var q := items[k].quantity + 1;
    assert Increase(items, k) == SetQuantity(items, items[k].product.id, q);
    SetQuantityAt(items, k, q);
    TotalAfterReplace(items, k, q);
    assert q - items[k].quantity == 1;
  }

  /** "-" on a quantity above one keeps every line and lowers the total by exactly that line's price. */
  lemma DecreaseSubtractsPrice(items: seq<CartItem>, k: nat)
    requires k < |items| && UniqueAt(items, k) && items[k].quantity > 1
    ensures |Decrease(items, k)| == |items|
    ensures Decrease(items, k)[k].quantity == items[k].quantity - 1
    ensures Total(Decrease(items, k)) == Total(items) - items[k].product.priceCents
  {
    var q := items[k].quantity - 1;
    assert Decrease(items, k) == SetQuantity(items, items[k].product.id, q);
    SetQuantityAt(items, k, q);
    TotalAfterReplace(items, k, q);
    assert q - items[k].quantity == -1;
  }

  /** "-" on a quantity of one deletes that line, keeps the rest in order, and lowers the total by its price. */
  lemma DecreaseLastRemoves(items: seq<CartItem>, k: nat)
    requires k < |items| && UniqueAt(items, k) && items[k].quantity == 1
    ensures Decrease(items, k) == items[..k] + items[k + 1..]
    ensures Total(Decrease(items, k)) == Total(items) - items[k].product.priceCents
  {
    RemoveIdAt(items, k);
    TotalAround(items, k);
    TotalConcat(items[..k], items[k + 1..]);
  }

  /** What the component shows: the empty message, or the lines with the total and the Checkout button. */
  datatype CartView = EmptyCart | Listing(lineTotals: seq<int>, totalCents: int)

  /** The Checkout button is part of the listing and only of the listing. */
  predicate ShowsCheckout(view: CartView) {
    view.Listing?
  }

  /** Rendering: the Checkout button is shown exactly when the cart has a line, and the listing carries the total. */
  function Render(items: seq<CartItem>): (v: CartView)
    ensures ShowsCheckout(v) <==> |items| > 0
    ensures v.Listing? ==> v.totalCents == Total(items) && |v.lineTotals| == |items|
    ensures v.Listing? ==> forall i :: 0 <= i < |items| ==> v.lineTotals[i] == LineTotal(items[i])
  {
    if |items| == 0 then EmptyCart
    else Listing(seq(|items|, i requires 0 <= i < |items| => LineTotal(items[i])), Total(items))
  }

  /** A product with the given id and price and placeholder text, for the component's test carts. */
  function TestProduct(id: string, priceCents: int): Product {
    Product(id, "Test Product " + id, "Description " + id, priceCents, "https://example.com/image" + id + ".jpg",
      "Category " + id)
  }

  /** The component's test cart: two at $50.00 and one at $30.00. */
  const TestCart: seq<CartItem> := [CartItem(TestProduct("1", 5000), 2), CartItem(TestProduct("2", 3000), 1)]

  /** The test cart totals $130.00; "+" on the first line gives $180.00 and "-" gives $80.00. */
  lemma TestCartTotals()
    ensures Total(TestCart) == 13000
    ensures Total(Increase(TestCart, 0)) == 18000
    ensures Total(Decrease(TestCart, 0)) == 8000
  {
    assert "1" != "2";
    assert UniqueAt(TestCart, 0);
    assert TestCart[..1] == [TestCart[0]];
    assert Total(TestCart) == 13000;
    IncreaseAddsPrice(TestCart, 0);
    DecreaseSubtractsPrice(TestCart, 0);
  }

  /** "-" on the only line, at quantity one, empties the cart, which then shows no Checkout button. */
  lemma SingleItemRemoved()
    ensures Decrease([CartItem(TestProduct("1", 5000), 1)], 0) == []
    ensures !ShowsCheckout(Render(Decrease([CartItem(TestProduct("1", 5000), 1)], 0)))
  {
    DecreaseLastRemoves([CartItem(TestProduct("1", 5000), 1)], 0);
  }
}

=== FILE: catalog.dfy ===
/** The static product catalog and its two read operations. */
module Catalog {
  import opened Wrappers

  /** A product; the price is in integer cents. */
  datatype Product = Product(
    id: string,
    name: string,
    description: string,
    priceCents: int,
    image: string,
    category: string)

  /** The six products, in declaration order. */
  const Products: seq<Product> := [
    Product("1", "Premium Wireless Headphones",
      "High-quality wireless headphones with noise cancellation and 30-hour battery life.", 29999,
      "https://images.unsplash.com/photo-1505740420928-5e560c06d30e?w=500&h=500&fit=crop", "Electronics"),
    Product("2", "Smart Watch Pro",
      "Advanced fitness tracking, heart rate monitoring, and smartphone notifications.", 39999,
      "https://images.unsplash.com/photo-1523275335684-37898b6baf30?w=500&h=500&fit=crop", "Electronics"),
    Product("3", "Designer Laptop Bag",
      "Stylish and durable laptop bag with multiple compartments for all your essentials.", 8999,
      "https://images.unsplash.com/photo-1553062407-98eeb64c6a62?w=500&h=500&fit=crop", "Accessories"),
    Product("4", "Ergonomic Office Chair",
      "Comfortable office chair with lumbar support and adjustable height.", 44999,
      "https://images.unsplash.com/photo-1580480055273-228ff5388ef8?w=500&h=500&fit=crop", "Furniture"),
    Product("5", "Portable Bluetooth Speaker",
      "Waterproof speaker with 360\U{00B0} sound and 12-hour playtime.", 7999,
      "https://images.unsplash.com/photo-1608043152269-423dbba4e7e1?w=500&h=500&fit=crop", "Electronics"),
    Product("6", "Minimalist Desk Lamp",
      "LED desk lamp with adjustable brightness and color temperature.", 5999,
      "https://images.unsplash.com/photo-1507473885765-e6ed057f782c?w=500&h=500&fit=crop", "Home")
  ]

  /** No two products share an id. */
  predicate IdsDistinct(ps: seq<Product>) {
    forall i, j :: 0 <= i < j < |ps| ==> ps[i].id != ps[j].id
  }

  /** The position of the first product with `id`, or -1 (`findIndex(p => p.id === id)`). */
  function FindIndex(ps: seq<Product>, id: string): (k: int)
    ensures -1 <= k < |ps|
    ensures k >= 0 ==> ps[k].id == id && forall j :: 0 <= j < k ==> ps[j].id != id
    ensures k == -1 <==> forall j :: 0 <= j < |ps| ==> ps[j].id != id
  {
    if ps == [] then -1
    else if ps[0].id == id then 0
    else
      var k := FindIndex(ps[1..], id);
      if k < 0 then -1 else k + 1
  }

  /**
   * `ps.find(p => p.id === id)`: the first product with that id, or `undefined` exactly when none has it.
   */
  function Find(ps: seq<Product>, id: string): (r: Option<Product>)
    ensures r.Some? ==> r.value in ps && r.value.id == id
    ensures r.None? <==> forall p :: p in ps ==> p.id != id
    ensures r.Some? ==> exists k :: 0 <= k < |ps| && ps[k] == r.value && forall j :: 0 <= j < k ==> ps[j].id != id
  {
    var k := FindIndex(ps, id);
    if k < 0 then None else Some(ps[k])
  }

  /** `getProducts`: the whole catalog, in declaration order. */
  function GetProducts(): (r: seq<Product>)
    ensures |r| == 6 && IdsDistinct(r)
    ensures forall i :: 0 <= i < 6 ==> r[i].id == ["123456"[i]]
  {
    Products
  }

  /** The declared prices, in cents, and categories of the six products. */
  lemma ProductsListing()
    ensures |GetProducts()| == 6
    ensures forall i :: 0 <= i < 6 ==> GetProducts()[i].priceCents == [29999, 39999, 8999, 44999, 7999, 5999][i]
    ensures forall i :: 0 <= i < 6 ==>
      GetProducts()[i].category == ["Electronics", "Electronics", "Accessories", "Furniture", "Electronics", "Home"][i]
  {
  }

  /** `getProductById`: the catalog product with that id, or "not found". */
  function GetProductById(id: string): (r: Option<Product>)
    ensures r.Some? ==> r.value in GetProducts() && r.value.id == id
    ensures r.None? <==> forall p :: p in GetProducts() ==> p.id != id
  {
    Find(Products, id)
  }

  /** With distinct ids the product found is the only one carrying that id. */
  lemma FindUnique(ps: seq<Product>, k: nat)
    requires IdsDistinct(ps) && k < |ps|
    ensures Find(ps, ps[k].id) == Some(ps[k])
  {
  }

  /** Every catalog id is found, and it finds the product declared with it. */
  lemma LookupEveryCatalogId()
    ensures forall k :: 0 <= k < |Products| ==> GetProductById(Products[k].id) == Some(Products[k])
  {
    forall k | 0 <= k < |Products|
      ensures GetProductById(Products[k].id) == Some(Products[k])
    {
      FindUnique(Products, k);
    }
  }

  /** An id outside the catalog, such as "7", is not found. */
  lemma LookupMiss()
    ensures GetProductById("7").None?
  {
  }
}

=== FILE: consistency.dfy ===
/**
 * How the components see the same override cookie: where the toolbar, the override endpoint and the
 * interceptor agree, and the two places where they do not.
 */
module Consistency {
  import opened Wrappers
  import opened Json
  import opened OverrideCookie
  import opened Flags
  import FlagOverrides
  import Proxy
  import Toolbar

  /**
   * A registry flag as the toolbar receives it from the definitions endpoint, on the assumption that the
   * flag library's provider-data helper passes description, options and default through unchanged.
   */
  function MetadataOf(f: FlagDefinition): (m: Toolbar.FlagMetadata)
    ensures m.key == f.key && m.defaultValue == Some(f.defaultValue) && m.options.Some?
    ensures |m.options.value| == |f.options|
    ensures forall i :: 0 <= i < |f.options| ==> m.options.value[i].value == f.options[i].value
  {
    var opts := seq(|f.options|, i requires 0 <= i < |f.options| =>
      Toolbar.OptionMeta(f.options[i].value, Some(f.options[i].caption)));
    Toolbar.FlagMetadata(f.key, Some(f.description), Some(opts), Some(f.defaultValue))
  }

  /**
   * A `null` override: the interceptor passes `null` on as the flag's value, while the toolbar shows the
   * flag's default.
   */
  lemma NullOverrideDivergence(f: FlagDefinition)
    ensures Proxy.Resolve(map[f.key := JNull], f) == JNull
    ensures Toolbar.CurrentValue(map[f.key := JNull], f.key, MetadataOf(f)) == Some(f.defaultValue)
  {
  }

  /**
   * A cookie whose decryption throws: the override endpoint reads it as no overrides, while the
   * interceptor lets the exception escape and rewrites nothing.
   */
  lemma DecryptFailureDivergence(jar: Jar, pathname: string, decrypt: Decrypt, serialize: Proxy.Serialize)
    requires HasCookie(jar) && decrypt(jar[CookieName]).Threw?
    ensures FlagOverrides.CurrentOverrides(jar, decrypt) == map[]
    ensures Proxy.Intercept(jar, pathname, decrypt, serialize) == Proxy.DecryptionThrew
  {
  }

  /** Unless decryption throws, the interceptor reads the same overrides as the override endpoint. */
  lemma ReadsAgree(jar: Jar, decrypt: Decrypt)
    requires !(HasCookie(jar) && decrypt(jar[CookieName]).Threw?)
    ensures Proxy.ReadOverrides(jar, decrypt) == Success(FlagOverrides.CurrentOverrides(jar, decrypt))
  {
  }

  /**
   * Apart from `null`, the toolbar shows for a well-formed flag exactly the value the interceptor
   * resolves: the override when there is one, and otherwise the default, which is the decision.
   */
  lemma ToolbarShowsResolvedValue(overrides: Object, f: FlagDefinition)
    requires WellFormed(f)
    requires f.key in overrides ==> overrides[f.key] != JNull
    ensures Toolbar.CurrentValue(overrides, f.key, MetadataOf(f)) == Some(Proxy.Resolve(overrides, f))
  {
  }

  /** With no overrides both registry flags are drawn as toggles showing their defaults. */
  lemma RegistryTogglesAtDefaults()
    ensures Toolbar.RenderControl(map[], ShowNewLayout.key, MetadataOf(ShowNewLayout)) == Toolbar.Toggle(false, "Disabled")
    ensures Toolbar.RenderControl(map[], EnablePromoBanner.key, MetadataOf(EnablePromoBanner)) == Toolbar.Toggle(true, "Enabled")
  {
    assert Toolbar.IsBooleanToggle(Toolbar.OptionsOf(MetadataOf(ShowNewLayout)));
    assert Toolbar.IsBooleanToggle(Toolbar.OptionsOf(MetadataOf(EnablePromoBanner)));
  }

  /**
   * The toolbar's local update agrees with the server: posting `{ [key]: value }` stores exactly the
   * current overrides changed at that key.
   */
  lemma ToolbarChangeMatchesServer(jar: Jar, key: string, value: Json, decrypt: Decrypt, encrypt: Encrypt)
    requires RoundTripsOn(encrypt, decrypt,
      FlagOverrides.Merge(FlagOverrides.CurrentOverrides(jar, decrypt), Toolbar.ChangeRequest(key, value)))
    ensures var after := FlagOverrides.Post(jar, Some(Toolbar.ChangeRequest(key, value)), decrypt, encrypt);
      && after.Answered?
      && FlagOverrides.CurrentOverrides(after.jar, decrypt)
         == Toolbar.LocalChange(FlagOverrides.CurrentOverrides(jar, decrypt), key, value)
  {
    var body := Toolbar.ChangeRequest(key, value);
    FlagOverrides.GetAfterPost(jar, body.fields, decrypt, encrypt);
  }

  /**
   * End to end: after the toolbar posts a value for a precompute flag, the interceptor resolves that flag
   * to the value and every other precompute flag as the override endpoint's earlier overrides did.
   */
  lemma ProxySeesPostedOverride(jar: Jar, i: nat, value: Json, decrypt: Decrypt, encrypt: Encrypt)
    requires i < |PrecomputeFlags|
    requires RoundTripsOn(encrypt, decrypt,
      FlagOverrides.Merge(FlagOverrides.CurrentOverrides(jar, decrypt),
        Toolbar.ChangeRequest(PrecomputeFlags[i].key, value)))
    ensures var after := FlagOverrides.Post(jar, Some(Toolbar.ChangeRequest(PrecomputeFlags[i].key, value)), decrypt, encrypt);
      && after.Answered?
      && Proxy.ReadOverrides(after.jar, decrypt).Success?
      && Proxy.ResolveAll(Proxy.ReadOverrides(after.jar, decrypt).value, PrecomputeFlags)
         == Proxy.ResolveAll(FlagOverrides.CurrentOverrides(jar, decrypt), PrecomputeFlags)[i := value]
  {
    var key := PrecomputeFlags[i].key;
    var after := FlagOverrides.Post(jar, Some(Toolbar.ChangeRequest(key, value)), decrypt, encrypt);
    ToolbarChangeMatchesServer(jar, key, value, decrypt, encrypt);
    var stored := FlagOverrides.Merge(FlagOverrides.CurrentOverrides(jar, decrypt), Toolbar.ChangeRequest(key, value));
    assert after.jar[CookieName] == encrypt(stored);
    assert Proxy.ReadOverrides(after.jar, decrypt) == Success(stored);
    RegistryShape();
  }
}

=== FILE: flag_overrides.dfy ===
/** The override endpoint: GET reads the override cookie, POST merges into it, DELETE clears it. */
module FlagOverrides {
  import opened Wrappers
  import opened Json
  import opened OverrideCookie

  /** A handled request: status, JSON body, and the browser's cookies once the answer's Set-Cookie applies. */
  datatype Exchange = Answered(status: int, body: Json, jar: Jar) | Thrown

  /** `{ success: true }`. */
  const SuccessBody: Json := JObj(map["success" := JBool(true)])

  /**
   * `getCurrentOverrides`: a missing or empty cookie, a decryption that throws, and a decryption that
   * yields nothing all read as `{}`; otherwise the decrypted object. Never an error.
   */
  function CurrentOverrides(jar: Jar, decrypt: Decrypt): (r: Object)
    ensures !HasCookie(jar) ==> r == map[]
    ensures HasCookie(jar) && decrypt(jar[CookieName]).Threw? ==> r == map[]
    ensures HasCookie(jar) && decrypt(jar[CookieName]) == Decrypted(None) ==> r == map[]
    ensures HasCookie(jar) && decrypt(jar[CookieName]).Decrypted? && decrypt(jar[CookieName]).overrides.Some? ==>
      r == decrypt(jar[CookieName]).overrides.value
  {
    match CookieValue(jar)
    case None => map[]
    case Some(v) =>
      if v == "" then map[]
      else
        match decrypt(v)
        case Threw => map[]
        case Decrypted(d) => d.GetOr(map[])
  }

  /** `GET`: answers `{ overrides }` and sets no cookie. */
  function Get(jar: Jar, decrypt: Decrypt): (r: Exchange)
    ensures r.Answered? && r.status == 200 && r.jar == jar
    ensures r.body.JObj? && "overrides" in r.body.fields
    ensures r.body.fields["overrides"] == JObj(CurrentOverrides(jar, decrypt))
  {
    Answered(200, JObj(map["overrides" := JObj(CurrentOverrides(jar, decrypt))]), jar)
  }

  /**
   * `{ ...current, ...payload }`: a shallow merge in which the payload wins. Every payload key takes the
   * payload's value, every other key keeps its value, and the keys are those of both.
   */
  function Merge(current: Object, payload: Json): (r: Object)
    ensures r.Keys == current.Keys + Spread(payload).Keys
    ensures forall k :: k in Spread(payload) ==> r[k] == Spread(payload)[k]
    ensures forall k :: k in current && k !in Spread(payload) ==> r[k] == current[k]
  {
    current + Spread(payload)
  }

  /**
   * `POST`: `body` is the parsed request body, `None` when it is not JSON, in which case the handler
   * throws. Otherwise the merge of the current overrides and the payload is encrypted into the cookie,
   * and no other cookie changes.
   */
  function Post(jar: Jar, body: Option<Json>, decrypt: Decrypt, encrypt: Encrypt): (r: Exchange)
    ensures r.Thrown? <==> body.None?
    ensures r.Answered? ==> r.status == 200 && r.body == SuccessBody
    ensures r.Answered? ==>
      CookieName in r.jar && r.jar[CookieName] == encrypt(Merge(CurrentOverrides(jar, decrypt), body.value))
    ensures r.Answered? ==> forall c :: c != CookieName ==> (c in r.jar <==> c in jar) && (c in jar ==> r.jar[c] == jar[c])
  {
    match body
    case None => Thrown
    case Some(payload) =>
      var next := Merge(CurrentOverrides(jar, decrypt), payload);
      Answered(200, SuccessBody, jar[CookieName := encrypt(next)])
  }

  /** `DELETE`: removes the override cookie and no other. */
  function Delete(jar: Jar): (r: Exchange)
    ensures r.Answered? && r.status == 200 && r.body == SuccessBody
    ensures CookieName !in r.jar
    ensures forall c :: c != CookieName ==> (c in r.jar <==> c in jar) && (c in jar ==> r.jar[c] == jar[c])
  {
    Answered(200, SuccessBody, jar - {CookieName})
  }

  /**
   * GET after a POST of an object returns the merged overrides: the payload's keys with the payload's
   * values, every other earlier key with its earlier value, and nothing else.
   */
  lemma GetAfterPost(jar: Jar, payload: Object, decrypt: Decrypt, encrypt: Encrypt)
    requires RoundTripsOn(encrypt, decrypt, Merge(CurrentOverrides(jar, decrypt), JObj(payload)))
    ensures var after := Post(jar, Some(JObj(payload)), decrypt, encrypt);
      var before := CurrentOverrides(jar, decrypt);
      var read := CurrentOverrides(after.jar, decrypt);
      && after.Answered?
      && read.Keys == before.Keys + payload.Keys
      && (forall k :: k in payload ==> read[k] == payload[k])
      && (forall k :: k in before && k !in payload ==> read[k] == before[k])
  {
    var after := Post(jar, Some(JObj(payload)), decrypt, encrypt);
    var next := Merge(CurrentOverrides(jar, decrypt), JObj(payload));
    assert after.jar[CookieName] == encrypt(next);
    assert decrypt(encrypt(next)) == Decrypted(Some(next));
  }

  /**
   * When the stored cookie does not read back (its encryption is empty, or decrypting it throws or yields
   * nothing), the next GET after the POST falls back to `{}`, whatever was posted.
   */
  lemma GetAfterUnreadablePost(jar: Jar, payload: Object, decrypt: Decrypt, encrypt: Encrypt)
    requires var stored := encrypt(Merge(CurrentOverrides(jar, decrypt), JObj(payload)));
      stored == "" || decrypt(stored) == Threw || decrypt(stored) == Decrypted(None)
    ensures var after := Post(jar, Some(JObj(payload)), decrypt, encrypt);
      after.Answered? && CurrentOverrides(after.jar, decrypt) == map[]
  {
  }

  /** After a DELETE the next GET answers `{ overrides: {} }`, whatever the decryption. */
  lemma GetAfterDelete(jar: Jar, decrypt: Decrypt)
    ensures Get(Delete(jar).jar, decrypt).body == JObj(map["overrides" := JObj(map[])])
  {
  }

  /** Posting an object twice in a row is posting their merge once. */
  lemma PostTwice(jar: Jar, first: Object, second: Object, decrypt: Decrypt, encrypt: Encrypt)
    requires RoundTripsOn(encrypt, decrypt, Merge(CurrentOverrides(jar, decrypt), JObj(first)))
    requires RoundTripsOn(encrypt, decrypt,
      Merge(Merge(CurrentOverrides(jar, decrypt), JObj(first)), JObj(second)))
    ensures var once := Post(jar, Some(JObj(first)), decrypt, encrypt);
      CurrentOverrides(Post(once.jar, Some(JObj(second)), decrypt, encrypt).jar, decrypt)
      == CurrentOverrides(jar, decrypt) + first + second
  {
    var once := Post(jar, Some(JObj(first)), decrypt, encrypt);
    GetAfterPost(jar, first, decrypt, encrypt);
    var twice := Post(once.jar, Some(JObj(second)), decrypt, encrypt);
    GetAfterPost(once.jar, second, decrypt, encrypt);
  }
}

=== FILE: flags.dfy ===
/** The flag registry: two boolean flags, the toolbar's map of them and the fixed precompute order. */
module Flags {
  import opened Json

  /** One allowed value of a flag and the caption (label) the toolbar shows for it. */
  datatype FlagOption = FlagOption(value: Json, caption: string)

  /**
   * A flag definition. The flags here decide without looking at the request, so `decide()` is
   * represented by the value it returns, `decision`.
   */
  datatype FlagDefinition = FlagDefinition(
    key: string,
    description: string,
    options: seq<FlagOption>,
    defaultValue: Json,
    decision: Json)

  /** The option list both flags declare: Enabled (`true`) then Disabled (`false`). */
  const BooleanOptions: seq<FlagOption> := [FlagOption(JBool(true), "Enabled"), FlagOption(JBool(false), "Disabled")]

  const ShowNewLayout: FlagDefinition := FlagDefinition(
    "showNewLayout",
    "Show new product layout design (4-column vs 3-column grid)",
    BooleanOptions,
    JBool(false),
    JBool(false))

  const EnablePromoBanner: FlagDefinition := FlagDefinition(
    "enablePromoBanner",
    "Display promotional banner on homepage",
    BooleanOptions,
    JBool(true),
    JBool(true))

  /** `toolbarFlags`: the flags keyed by name, for the toolbar's definitions endpoint. */
  const ToolbarFlags: map<string, FlagDefinition> :=
    map["showNewLayout" := ShowNewLayout, "enablePromoBanner" := EnablePromoBanner]

  /** `precomputeFlags`: the order in which resolved values are serialised into the path code. */
  const PrecomputeFlags: seq<FlagDefinition> := [ShowNewLayout, EnablePromoBanner]

  /** The keys of a flag list, in order. */
  function Keys(flags: seq<FlagDefinition>): (ks: seq<string>)
    ensures |ks| == |flags|
    ensures forall i :: 0 <= i < |flags| ==> ks[i] == flags[i].key
  {
    seq(|flags|, i requires 0 <= i < |flags| => flags[i].key)
  }

  /** Every flag decides its declared default and offers exactly the two booleans. */
  predicate WellFormed(f: FlagDefinition) {
    && f.decision == f.defaultValue
    && |f.options| == 2
    && f.options[0].value == JBool(true)
    && f.options[1].value == JBool(false)
  }

  /** `showNewLayout` decides `false`, `enablePromoBanner` decides `true`, each equal to its default. */
  lemma RegistryDecisions()
    ensures ShowNewLayout.decision == JBool(false) && EnablePromoBanner.decision == JBool(true)
    ensures forall f :: f in PrecomputeFlags ==> WellFormed(f)
  {
  }

  /**
   * The precompute order is `[showNewLayout, enablePromoBanner]`, its keys are distinct, and the toolbar
   * map holds the same flags, each under its own key.
   */
  lemma RegistryShape()
    ensures Keys(PrecomputeFlags) == ["showNewLayout", "enablePromoBanner"]
    ensures Keys(PrecomputeFlags)[0] != Keys(PrecomputeFlags)[1]
    ensures ToolbarFlags.Keys == set f | f in PrecomputeFlags :: f.key
    ensures forall k :: k in ToolbarFlags ==> ToolbarFlags[k].key == k && ToolbarFlags[k] in PrecomputeFlags
  {
    assert "showNewLayout"[0] != "enablePromoBanner"[0];
  }
}

=== FILE: json.dfy ===
/** JSON values as parsed by `JSON.parse`, and the few JavaScript operations the core applies to them. */
module Json {
  import opened Wrappers

  /**
   * A parsed JSON value. Numbers are exact reals, not doubles: a literal beyond the double range such as
   * `1e400`, which `JSON.parse` reads as `Infinity`, stays a finite real here.
   */
  datatype Json =
    | JNull
    | JBool(b: bool)
    | JNum(n: real)
    | JStr(s: string)
    | JArr(items: seq<Json>)
    | JObj(fields: map<string, Json>)

  /** A flat JavaScript object from string keys to JSON values (`Record<string, unknown>`). */
  type Object = map<string, Json>

  /** The error raised when reading a property of `null`. */
  datatype TypeError = TypeError

  /**
   * Reading property `name` of a parsed JSON value: `null` throws, an object yields its own field or
   * `undefined`, and every other value yields `undefined` (strings, numbers, booleans and arrays carry no
   * own property under the names this model reads).
   */
  function Property(v: Json, name: string): (r: Result<Option<Json>, TypeError>)
    ensures r.Failure? <==> v.JNull?
    ensures r.Success? && r.value.Some? ==> v.JObj? && name in v.fields && r.value.value == v.fields[name]
    ensures v.JObj? && name in v.fields ==> r == Success(Some(v.fields[name]))
  {
    match v
    case JNull => Failure(TypeError)
    case JObj(m) => Success(if name in m then Some(m[name]) else None)
    case _ => Success(None)
  }

  /** JavaScript truthiness of a value that may be `undefined`. */
  predicate Truthy(v: Option<Json>) {
    match v
    case None => false
    case Some(JNull) => false
    case Some(JBool(b)) => b
    case Some(JNum(n)) => n != 0.0
    case Some(JStr(s)) => |s| > 0
    case Some(JArr(_)) => true
    case Some(JObj(_)) => true
  }

  /**
   * JavaScript `===` between two values that came from two separate `JSON.parse` calls: primitives compare
   * by value and `undefined === undefined`, while two arrays or objects are never the same reference.
   * Reference identity (one object compared with itself) is outside this model.
   */
  predicate StrictEquals(a: Option<Json>, b: Option<Json>) {
    match (a, b)
    case (None, None) => true
    case (Some(JNull), Some(JNull)) => true
    case (Some(JBool(x)), Some(JBool(y))) => x == y
    case (Some(JNum(x)), Some(JNum(y))) => x == y
    case (Some(JStr(x)), Some(JStr(y))) => x == y
    case _ => false
  }

  /**
   * `StrictEquals` is symmetric, agrees with equality on every value that is not an array or object, and
   * never holds for an array or object.
   */
  lemma StrictEqualsPrimitive(a: Option<Json>, b: Option<Json>)
    ensures StrictEquals(a, b) <==> StrictEquals(b, a)
    ensures StrictEquals(a, b) ==> a == b
    ensures a.Some? && (a.value.JArr? || a.value.JObj?) ==> !StrictEquals(a, b)
    ensures a == b && (a.None? || !(a.value.JArr? || a.value.JObj?)) ==> StrictEquals(a, b)
  {
  }

  /** The decimal digit character for `d`. */
  function Digit(d: nat): (c: char)
    requires d < 10
    ensures '0' <= c <= '9'
  {
    "0123456789"[d]
  }

  /** `String(n)` for a natural number: its shortest decimal spelling, as used for array index keys. */
  function DecimalString(n: nat): (r: string)
    ensures |r| >= 1
    ensures n < 10 <==> |r| == 1
    decreases n
  {
    if n < 10 then [Digit(n)] else DecimalString(n / 10) + [Digit(n % 10)]
  }

  /** Two different indices never spell the same key. */
  lemma {:induction false} DecimalStringInjective(a: nat, b: nat)
    requires DecimalString(a) == DecimalString(b)
    ensures a == b
    decreases a
  {
    if a >= 10 && b >= 10 {
      var da, db := DecimalString(a), DecimalString(b);
      assert da[|da| - 1] == Digit(a % 10) && db[|db| - 1] == Digit(b % 10);
      assert da[..|da| - 1] == DecimalString(a / 10);
      assert db[..|db| - 1] == DecimalString(b / 10);
      DecimalStringInjective(a / 10, b / 10);
    } else {
      assert "0123456789"[a] == "0123456789"[b];
    }
  }

  /** `k` spells one of the indices `0 .. n-1`. */
  ghost predicate IsIndexKey(k: string, n: nat) {
    exists i :: 0 <= i < n && DecimalString(i) == k
  }

  /** The object `{...xs}` for an array or a string broken into elements: index `i` spelled in decimal maps to `xs[i]`. */
  function IndexedObject(xs: seq<Json>): (r: Object)
    ensures forall i :: 0 <= i < |xs| ==> DecimalString(i) in r && r[DecimalString(i)] == xs[i]
    ensures forall k :: k in r ==> IsIndexKey(k, |xs|)
    decreases |xs|
  {
    if xs == [] then map[]
    else
      var last := |xs| - 1;
      var prefix := IndexedObject(xs[..last]);
      IndexedObjectStep(xs, prefix);
      prefix[DecimalString(last) := xs[last]]
  }

  lemma IndexedObjectStep(xs: seq<Json>, prefix: Object)
    requires |xs| > 0
    requires forall i :: 0 <= i < |xs| - 1 ==> DecimalString(i) in prefix && prefix[DecimalString(i)] == xs[i]
    requires forall k :: k in prefix ==> IsIndexKey(k, |xs| - 1)
    ensures var r := prefix[DecimalString(|xs| - 1) := xs[|xs| - 1]];
      && (forall i :: 0 <= i < |xs| ==> DecimalString(i) in r && r[DecimalString(i)] == xs[i])
      && (forall k :: k in r ==> IsIndexKey(k, |xs|))
  {
    var last := |xs| - 1;
    var key := DecimalString(last);
    var r := prefix[key := xs[last]];
    forall i | 0 <= i < |xs|
      ensures DecimalString(i) in r && r[DecimalString(i)] == xs[i]
    {
      if i < last && DecimalString(i) == key {
        DecimalStringInjective(i, last);
      }
    }
    forall k | k in r
      ensures IsIndexKey(k, |xs|)
    {
      if k == key {
        assert 0 <= last < |xs| && DecimalString(last) == k;
      } else {
        assert IsIndexKey(k, last);
        var i :| 0 <= i < last && DecimalString(i) == k;
        assert 0 <= i < |xs|;
      }
    }
  }

  /**
   * The own enumerable properties that object spread `{...v}` copies out of a parsed JSON value: an object's
   * fields, an array's indexed elements, a string's indexed characters, and nothing for `null`, booleans or numbers.
   */
  function Spread(v: Json): (r: Object)
    ensures v.JObj? ==> r == v.fields
    ensures v.JNull? || v.JBool? || v.JNum? ==> r == map[]
    ensures v.JArr? ==> forall i :: 0 <= i < |v.items| ==> DecimalString(i) in r && r[DecimalString(i)] == v.items[i]
    ensures v.JStr? ==> forall i :: 0 <= i < |v.s| ==> DecimalString(i) in r && r[DecimalString(i)] == JStr([v.s[i]])
    ensures v.JArr? ==> forall k :: k in r ==> IsIndexKey(k, |v.items|)
    ensures v.JStr? ==> forall k :: k in r ==> IsIndexKey(k, |v.s|)
  {
    match v
    case JObj(m) => m
    case JArr(xs) => IndexedObject(xs)
    case JStr(s) => IndexedObject(seq(|s|, i requires 0 <= i < |s| => JStr([s[i]])))
    case _ => map[]
  }
}

=== FILE: override_cookie.dfy ===
/** The encrypted override cookie, as both the override route and the proxy read it. */
module OverrideCookie {
  import opened Wrappers
  import opened Json

  const CookieName: string := "vercel-flag-overrides"

  /** The browser's cookies, by name. */
  type Jar = map<string, string>

  /**
   * What the flag library's `decryptOverrides` does with a cookie value: it throws, or it yields an
   * override object or nothing (`null` / `undefined`). The decryption itself is a parameter of this model.
   */
  datatype Decryption = Threw | Decrypted(overrides: Option<Object>)

  /** The library's decryption of a cookie value. */
  type Decrypt = string -> Decryption

  /** The library's encryption of an override object into a cookie value. */
  type Encrypt = Object -> string

  /** `cookies.get(name)?.value`. */
  function CookieValue(jar: Jar): (v: Option<string>)
    ensures v.Some? <==> CookieName in jar
  {
    if CookieName in jar then Some(jar[CookieName]) else None
  }

  /** The cookie value when it is truthy: present and not the empty string. */
  predicate HasCookie(jar: Jar) {
    CookieName in jar && jar[CookieName] != ""
  }

  /**
   * The overrides `m` survive the cookie: their encryption is not the empty string, which a reader would
   * take for a missing cookie, and decrypts back to `m`. This is asked only of the object actually stored,
   * never of every object: exact real numbers have no injective encoding as strings.
   */
  predicate RoundTripsOn(encrypt: Encrypt, decrypt: Decrypt, m: Object) {
    encrypt(m) != "" && decrypt(encrypt(m)) == Decrypted(Some(m))
  }

  /** For any one object some encryption and decryption carry it through the cookie. */
  lemma RoundTripsOnMeetable(m: Object)
    ensures RoundTripsOn(_ => "c", s => if s == "c" then Decrypted(Some(m)) else Threw, m)
  {
  }
}

=== FILE: proxy.dfy ===
/**
 * The request interceptor: resolve every precompute flag from the override cookie or its decision,
 * serialise the values into a code, and rewrite the path to start with that code.
 */
module Proxy {
  import opened Wrappers
  import opened Json
  import opened OverrideCookie
  import opened Flags

  /** The flag library's `serialize(flags, values)`; nothing is assumed about the codes it produces. */
  type Serialize = (seq<FlagDefinition>, seq<Json>) -> string

  /** The rewritten pathname, or the exception escaping from a decryption that threw. */
  datatype Outcome = Rewritten(pathname: string) | DecryptionThrew

  /**
   * The overrides the proxy reads: `{}` for a missing or empty cookie and for a decryption yielding
   * nothing; a decryption that throws is not caught here and fails the request.
   */
  function ReadOverrides(jar: Jar, decrypt: Decrypt): (r: Result<Object, Decryption>)
    ensures !HasCookie(jar) ==> r == Success(map[])
    ensures HasCookie(jar) ==> (r.Failure? <==> decrypt(jar[CookieName]).Threw?)
    ensures HasCookie(jar) && decrypt(jar[CookieName]) == Decrypted(None) ==> r == Success(map[])
    ensures HasCookie(jar) && decrypt(jar[CookieName]).Decrypted? && decrypt(jar[CookieName]).overrides.Some? ==>
      r == Success(decrypt(jar[CookieName]).overrides.value)
  {
    if !HasCookie(jar) then Success(map[])
    else
      match decrypt(jar[CookieName])
      case Threw => Failure(Threw)
      case Decrypted(d) => Success(d.GetOr(map[]))
  }

  /** One flag's value: the override when the key is present (even a `null` one), else its decision. */
  function Resolve(overrides: Object, flag: FlagDefinition): (v: Json)
    ensures flag.key in overrides ==> v == overrides[flag.key]
    ensures flag.key !in overrides ==> v == flag.decision
    ensures v == JNull ==> (flag.key in overrides && overrides[flag.key] == JNull) || flag.decision == JNull
  {
    if flag.key in overrides then overrides[flag.key] else flag.decision
  }

  /**
   * The resolved values, one per flag in the given order. A flag's value is its override when the
   * override object has its key, and its decision otherwise.
   */
  function ResolveAll(overrides: Object, flags: seq<FlagDefinition>): (values: seq<Json>)
    ensures |values| == |flags|
    ensures forall i :: 0 <= i < |flags| && flags[i].key in overrides ==> values[i] == overrides[flags[i].key]
    ensures forall i :: 0 <= i < |flags| && flags[i].key !in overrides ==> values[i] == flags[i].decision
    ensures forall i :: 0 <= i < |flags| ==> values[i] == Resolve(overrides, flags[i])
  {
    if flags == [] then [] else [Resolve(overrides, flags[0])] + ResolveAll(overrides, flags[1..])
  }

  /** Two override objects that agree on every flag's key resolve every flag alike, whatever else they hold. */
  lemma {:induction false} ResolveAllLocal(a: Object, b: Object, flags: seq<FlagDefinition>)
    requires forall f :: f in flags ==> (f.key in a <==> f.key in b) && (f.key in a ==> a[f.key] == b[f.key])
    ensures ResolveAll(a, flags) == ResolveAll(b, flags)
  {
    if flags != [] {
      assert flags[0] in flags;
      ResolveAllLocal(a, b, flags[1..]);
    }
  }

  /** `pathname === '/' ? `/${code}` : `/${code}${pathname}``. */
  function RewritePathname(pathname: string, code: string): (r: string)
    ensures |r| >= |code| + 1 && r[0] == '/' && r[1..|code| + 1] == code
    ensures pathname == "/" ==> r == "/" + code
    ensures pathname != "/" ==> r[|code| + 1..] == pathname
  {
    if pathname == "/" then "/" + code else "/" + code + pathname
  }

  /** Undoes the rewrite for a known code: what follows `/code`, or `/` when nothing does. */
  function StripCode(rewritten: string, code: string): string
    requires |rewritten| >= |code| + 1
  {
    var rest := rewritten[|code| + 1..];
    if rest == "" then "/" else rest
  }

  /** Every pathname the interceptor sees starts with `/`, and the rewrite can be undone knowing the code. */
  lemma RewriteRoundTrip(pathname: string, code: string)
    requires |pathname| > 0 && pathname[0] == '/'
    ensures StripCode(RewritePathname(pathname, code), code) == pathname
  {
  }

  /** The characters of `s` before its first `/`. */
  function Segment(s: string): (r: string)
    ensures |r| <= |s| && r == s[..|r|] && '/' !in r
    ensures |r| < |s| ==> s[|r|] == '/'
  {
    if s == [] || s[0] == '/' then []
    else
      var tail := Segment(s[1..]);
      assert s[..|tail| + 1] == [s[0]] + s[1..][..|tail|];
      [s[0]] + tail
  }

  /** The first segment of an absolute path, as the page layer reads its `[code]` parameter. */
  function FirstSegment(p: string): string
    requires |p| > 0 && p[0] == '/'
  {
    Segment(p[1..])
  }

  /** A code free of `/` followed by nothing or by a path is read back as the whole code. */
  lemma {:induction false} SegmentOfCode(code: string, rest: string)
    requires '/' !in code
    requires rest == [] || rest[0] == '/'
    ensures Segment(code + rest) == code
  {
    if code != [] {
      assert (code + rest)[1..] == code[1..] + rest;
      SegmentOfCode(code[1..], rest);
    } else {
      assert code + rest == rest;
    }
  }

  /** The code becomes the leading segment of every rewritten absolute path. */
  lemma CodeIsFirstSegment(pathname: string, code: string)
    requires |pathname| > 0 && pathname[0] == '/'
    requires '/' !in code
    ensures FirstSegment(RewritePathname(pathname, code)) == code
  {
    var r := RewritePathname(pathname, code);
    if pathname == "/" {
      assert r[1..] == code + [];
      SegmentOfCode(code, []);
    } else {
      assert r[1..] == code + pathname;
      SegmentOfCode(code, pathname);
    }
  }

  /**
   * `proxy(request)`: read the overrides (a throwing decryption escapes), resolve the precompute flags
   * in order, serialise them, and prefix the code to the pathname.
   */
  function Intercept(jar: Jar, pathname: string, decrypt: Decrypt, serialize: Serialize): (r: Outcome)
    ensures r.DecryptionThrew? <==> HasCookie(jar) && decrypt(jar[CookieName]).Threw?
    ensures r.Rewritten? ==>
      r.pathname == RewritePathname(pathname, serialize(PrecomputeFlags, ResolveAll(ReadOverrides(jar, decrypt).value, PrecomputeFlags)))
  {
    match ReadOverrides(jar, decrypt)
    case Failure(_) => DecryptionThrew
    case Success(overrides) =>
      var code := serialize(PrecomputeFlags, ResolveAll(overrides, PrecomputeFlags));
      Rewritten(RewritePathname(pathname, code))
  }

  /** Without the cookie every flag takes its decision: `showNewLayout` false, then `enablePromoBanner` true. */
  lemma NoCookieUsesDecisions(jar: Jar, pathname: string, decrypt: Decrypt, serialize: Serialize)
    requires !HasCookie(jar)
    ensures ResolveAll(ReadOverrides(jar, decrypt).value, PrecomputeFlags) == [JBool(false), JBool(true)]
    ensures Intercept(jar, pathname, decrypt, serialize)
      == Rewritten(RewritePathname(pathname, serialize(PrecomputeFlags, [JBool(false), JBool(true)])))
  {
  }

  /**
   * Two requests whose cookies read as overrides agreeing on both flag keys are rewritten alike: the
   * code depends on nothing but the resolved flag values.
   */
  lemma SameResolutionSameCode(jar1: Jar, jar2: Jar, pathname: string, decrypt: Decrypt, serialize: Serialize)
    requires ReadOverrides(jar1, decrypt).Success? && ReadOverrides(jar2, decrypt).Success?
    requires forall f :: f in PrecomputeFlags ==>
      var a, b := ReadOverrides(jar1, decrypt).value, ReadOverrides(jar2, decrypt).value;
      (f.key in a <==> f.key in b) && (f.key in a ==> a[f.key] == b[f.key])
    ensures Intercept(jar1, pathname, decrypt, serialize) == Intercept(jar2, pathname, decrypt, serialize)
  {
    ResolveAllLocal(ReadOverrides(jar1, decrypt).value, ReadOverrides(jar2, decrypt).value, PrecomputeFlags);
  }
}

=== FILE: revalidate_path.dfy ===
/** The path revalidation endpoint: `POST { path?, paths?, type? }`. */
module RevalidatePath {
  import opened Wrappers
  import opened Json
  import opened Targets

  const NonEmptyMessage: string := "Please provide a non-empty \"path\" or \"paths\" field."

  /** `getPaths`: the normalised `path` then `paths` entries; throws on a `null` payload. */
  function GetPaths(payload: Json): (r: Result<seq<string>, TypeError>)
    ensures r.Failure? <==> payload.JNull?
    ensures r.Success? ==>
      Collect(payload, "path", "paths").Success? && r.value == Normalize(Collect(payload, "path", "paths").value)
    ensures r.Success? ==> Distinct(r.value)
  {
    match Collect(payload, "path", "paths")
    case Failure(e) => Failure(e)
    case Success(raw) => Success(Normalize(raw))
  }

  /** The 200 answer for a non-empty list of paths, with the invalidations performed before it. */
  function Accept(paths: seq<string>, kind: Option<Json>, now: string): (out: Handled)
    ensures out.response.status == 200 && out.response.body.JObj?
    ensures |out.events| == |paths|
    ensures forall i :: 0 <= i < |paths| ==> out.events[i] == PathRevalidated(paths[i], kind)
    ensures "paths" in out.response.body.fields && out.response.body.fields["paths"] == StringArray(paths)
    ensures "success" in out.response.body.fields && out.response.body.fields["success"] == JBool(true)
    ensures "type" in out.response.body.fields && out.response.body.fields["type"] == kind.GetOr(JNull)
  {
    var events := seq(|paths|, i requires 0 <= i < |paths| => PathRevalidated(paths[i], kind));
    var answer := map[
      "success" := JBool(true),
      "revalidated" := JBool(true),
      "paths" := StringArray(paths),
      "type" := kind.GetOr(JNull),
      "now" := JStr(now)];
    Handled(Response(200, JObj(answer)), events)
  }

  /**
   * `POST`: `body` is the parsed request body, `None` when it is not valid JSON; `now` is the clock
   * reading echoed in the answer. A payload that cannot be read is a 400, an empty target list is a 400
   * without any invalidation, and otherwise every path is revalidated with the payload's `type`, in
   * order, and echoed back.
   */
  function Post(body: Option<Json>, now: string): (out: Handled)
    ensures out.response.status == 200 || out.response.status == 400
    ensures out.response.status == 400 ==> out.events == []
    ensures body.None? || body.value.JNull? ==> out.response == BadRequest(InvalidJsonMessage)
    ensures body.Some? && GetPaths(body.value) == Success([]) ==> out.response == BadRequest(NonEmptyMessage)
    ensures out.response.status == 200 <==>
      body.Some? && GetPaths(body.value).Success? && |GetPaths(body.value).value| > 0
    ensures out.response.status == 200 ==>
      out == Accept(GetPaths(body.value).value, Property(body.value, "type").value, now)
  {
    match body
    case None => Handled(BadRequest(InvalidJsonMessage), [])
    case Some(payload) =>
      match GetPaths(payload)
      case Failure(_) => Handled(BadRequest(InvalidJsonMessage), [])
      case Success(paths) =>
        if |paths| == 0 then Handled(BadRequest(NonEmptyMessage), [])
        else Accept(paths, Property(payload, "type").value, now)
  }

  /** The revalidated paths, in the order they were revalidated. */
  function RevalidatedPaths(events: seq<Invalidation>): (r: seq<string>)
    ensures |r| == |events|
  {
    seq(|events|, i requires 0 <= i < |events| => if events[i].PathRevalidated? then events[i].path else "")
  }

  /**
   * An accepted POST revalidates each echoed path exactly once and nothing else: the list of revalidated
   * paths is the list in the answer, which holds no path twice.
   */
  lemma EachPathRevalidatedOnce(paths: seq<string>, kind: Option<Json>, now: string)
    requires Distinct(paths)
    ensures var events := Accept(paths, kind, now).events;
      && RevalidatedPaths(events) == paths
      && (forall p :: p in paths ==> multiset(RevalidatedPaths(events))[p] == 1)
      && (forall p :: p !in paths ==> multiset(RevalidatedPaths(events))[p] == 0)
  {
    var events := Accept(paths, kind, now).events;
    assert RevalidatedPaths(events) == paths;
    forall p | p in paths
      ensures multiset(RevalidatedPaths(events))[p] == 1
    {
      DistinctCountsOnce(paths, p);
    }
  }

  /** `{ paths: ["/a", "/a", " /b "] }` is answered 200 with exactly `["/a", "/b"]`. */
  lemma DuplicatePathsExample(now: string)
    ensures var payload := JObj(map["paths" := JArr([JStr("/a"), JStr("/a"), JStr(" /b ")])]);
      && GetPaths(payload) == Success(["/a", "/b"])
      && Post(Some(payload), now).response.status == 200
  {
    var payload := JObj(map["paths" := JArr([JStr("/a"), JStr("/a"), JStr(" /b ")])]);
    var raw := ["/a", "/a", " /b "];
    CollectExample(payload, raw);
    NormalizeExample(raw);
  }

  lemma NormalizeExample(raw: seq<string>)
    requires raw == ["/a", "/a", " /b "]
    ensures Normalize(raw) == ["/a", "/b"]
  {
    TrimExample(raw);
    FirstOccurrencesExample(["/a", "/a", "/b"]);
  }

  lemma CollectExample(payload: Json, raw: seq<string>)
    requires payload == JObj(map["paths" := JArr([JStr("/a"), JStr("/a"), JStr(" /b ")])])
    requires raw == ["/a", "/a", " /b "]
    ensures Collect(payload, "path", "paths") == Success(raw)
  {
    var items := [JStr("/a"), JStr("/a"), JStr(" /b ")];
    assert "path" != "paths" by { assert |"path"| != |"paths"|; }
    assert Property(payload, "path") == Success(None);
    assert Property(payload, "paths") == Success(Some(JArr(items)));
    assert StringsOf(items[3..]) == [];
    assert StringsOf(items[2..]) == [" /b "];
    assert StringsOf(items[1..]) == ["/a", " /b "];
    assert StringsOf(items) == raw;
    assert [] + raw == raw;
    var c := Collect(payload, "path", "paths");
    assert c.Success?;
    assert c.value == raw;
  }

  lemma TrimExample(raw: seq<string>)
    requires raw == ["/a", "/a", " /b "]
    ensures TrimAll(raw) == ["/a", "/a", "/b"]
  {
    Strings.TrimFixesTrimmed("/a");
    assert Strings.TrimStart(" /b ") == "/b ";
    assert Strings.TrimEnd("/b ") == "/b";
  }

  lemma FirstOccurrencesExample(all: seq<string>)
    requires all == ["/a", "/a", "/b"]
    ensures FirstOccurrences(all, 3) == ["/a", "/b"]
  {
    assert "/a" != "/b" by { assert "/a"[1] != "/b"[1]; }
    assert KeptAt(all, 0);
    assert !KeptAt(all, 1);
    assert IndexOf(all[2..], "/b") == 0;
    assert IndexOf(all[1..], "/b") == 1;
    assert KeptAt(all, 2);
    assert FirstOccurrences(all, 1) == ["/a"];
    assert FirstOccurrences(all, 2) == ["/a"];
  }

  /** An empty object is answered 400 and nothing is revalidated. */
  lemma EmptyPayloadExample(now: string)
    ensures Post(Some(JObj(map[])), now) == Handled(BadRequest(NonEmptyMessage), [])
  {
    assert Collect(JObj(map[]), "path", "paths").value == [];
  }
}

=== FILE: revalidate_tag.dfy ===
/** The tag revalidation endpoint: `POST { tag?, tags? }`. */
module RevalidateTag {
  import opened Wrappers
  import opened Json
  import opened Targets

  const NonEmptyMessage: string := "Please provide a non-empty \"tag\" or \"tags\" field."

  /** The cache profile every tag is revalidated with. */
  const Profile: string := "page"

  /** `getTags`: the normalised `tag` then `tags` entries; throws on a `null` payload. */
  function GetTags(payload: Json): (r: Result<seq<string>, TypeError>)
    ensures r.Failure? <==> payload.JNull?
    ensures r.Success? ==>
      Collect(payload, "tag", "tags").Success? && r.value == Normalize(Collect(payload, "tag", "tags").value)
    ensures r.Success? ==> Distinct(r.value)
  {
    match Collect(payload, "tag", "tags")
    case Failure(e) => Failure(e)
    case Success(raw) => Success(Normalize(raw))
  }

  /** The 200 answer for a non-empty list of tags, with the invalidations performed before it. */
  function Accept(tags: seq<string>, now: string): (out: Handled)
    ensures out.response.status == 200 && out.response.body.JObj?
    ensures |out.events| == |tags|
    ensures forall i :: 0 <= i < |tags| ==> out.events[i] == TagRevalidated(tags[i], Profile)
    ensures "tags" in out.response.body.fields && out.response.body.fields["tags"] == StringArray(tags)
    ensures "success" in out.response.body.fields && out.response.body.fields["success"] == JBool(true)
  {
    var events := seq(|tags|, i requires 0 <= i < |tags| => TagRevalidated(tags[i], Profile));
    var answer := map[
      "success" := JBool(true),
      "revalidated" := JBool(true),
      "tags" := StringArray(tags),
      "now" := JStr(now)];
    Handled(Response(200, JObj(answer)), events)
  }

  /**
   * `POST`: `body` is the parsed request body, `None` when it is not valid JSON; `now` is the clock
   * reading echoed in the answer. A payload that cannot be read is a 400, an empty tag list is a 400
   * that invalidates nothing, and otherwise every tag is revalidated with profile "page", in order, and
   * echoed back.
   */
  function Post(body: Option<Json>, now: string): (out: Handled)
    ensures out.response.status == 200 || out.response.status == 400
    ensures out.response.status == 400 ==> out.events == []
    ensures body.None? || body.value.JNull? ==> out.response == BadRequest(InvalidJsonMessage)
    ensures body.Some? && GetTags(body.value) == Success([]) ==> out.response == BadRequest(NonEmptyMessage)
    ensures out.response.status == 200 <==>
      body.Some? && GetTags(body.value).Success? && |GetTags(body.value).value| > 0
    ensures out.response.status == 200 ==> out == Accept(GetTags(body.value).value, now)
  {
    match body
    case None => Handled(BadRequest(InvalidJsonMessage), [])
    case Some(payload) =>
      match GetTags(payload)
      case Failure(_) => Handled(BadRequest(InvalidJsonMessage), [])
      case Success(tags) =>
        if |tags| == 0 then Handled(BadRequest(NonEmptyMessage), [])
        else Accept(tags, now)
  }

  /** The invalidated tags, in the order they were invalidated. */
  function InvalidatedTags(events: seq<Invalidation>): (r: seq<string>)
    ensures |r| == |events|
  {
    seq(|events|, i requires 0 <= i < |events| => if events[i].TagRevalidated? then events[i].tag else "")
  }

  /**
   * An accepted POST invalidates each echoed tag exactly once, always with profile "page", and nothing
   * else: the list of invalidated tags is the list in the answer.
   */
  lemma EachTagInvalidatedOnce(tags: seq<string>, now: string)
    requires Distinct(tags)
    ensures var events := Accept(tags, now).events;
      && InvalidatedTags(events) == tags
      && (forall e :: e in events ==> e.TagRevalidated? && e.profile == Profile)
      && (forall t :: t in tags ==> multiset(InvalidatedTags(events))[t] == 1)
      && (forall t :: t !in tags ==> multiset(InvalidatedTags(events))[t] == 0)
  {
    var events := Accept(tags, now).events;
    assert InvalidatedTags(events) == tags;
    forall t | t in tags
      ensures multiset(InvalidatedTags(events))[t] == 1
    {
      DistinctCountsOnce(tags, t);
    }
  }

  /** A payload whose tags are all blank is answered 400 and invalidates nothing. */
  lemma BlankTagsRejected(now: string)
    ensures Post(Some(JObj(map["tag" := JStr(" "), "tags" := JArr([JStr(""), JNum(1.0)])])), now)
      == Handled(BadRequest(NonEmptyMessage), [])
  {
    var payload := JObj(map["tag" := JStr(" "), "tags" := JArr([JStr(""), JNum(1.0)])]);
    var items := [JStr(""), JNum(1.0)];
    assert StringsOf(items[1..]) == [];
    assert StringsOf(items) == [""];
    var c := Collect(payload, "tag", "tags");
    assert c.value == [" ", ""];
    BlankNormalize(c.value);
    assert GetTags(payload) == Success([]);
  }

  lemma BlankNormalize(raw: seq<string>)
    requires raw == [" ", ""]
    ensures Normalize(raw) == []
  {
    assert Strings.TrimStart(" ") == "";
    assert TrimAll(raw) == ["", ""];
    assert FirstOccurrences(["", ""], 2) == [];
  }
}

=== FILE: strings.dfy ===
/** `String.prototype.trim`: strip white space and line terminators from both ends of a string. */
module Strings {

  /**
   * The characters `trim` removes: the WhiteSpace code points (tab, vertical tab, form feed, zero-width
   * no-break space and every space separator) and the four line terminators of the ECMAScript grammar.
   */
  predicate IsTrimmable(c: char) {
    || c == '\t' || c == '\n' || c == '\U{000B}' || c == '\U{000C}' || c == '\r' || c == ' '
    || c == '\U{00A0}' || c == '\U{1680}' || ('\U{2000}' <= c <= '\U{200A}')
    || c == '\U{2028}' || c == '\U{2029}' || c == '\U{202F}' || c == '\U{205F}' || c == '\U{3000}'
    || c == '\U{FEFF}'
  }

  /** `s` neither starts nor ends with a trimmable character. */
  predicate IsTrimmed(s: string) {
    |s| > 0 ==> !IsTrimmable(s[0]) && !IsTrimmable(s[|s| - 1])
  }

  /** `s` without its leading trimmable characters. */
  function TrimStart(s: string): (r: string)
    ensures |r| <= |s| && r == s[|s| - |r|..]
    ensures forall k :: 0 <= k < |s| - |r| ==> IsTrimmable(s[k])
    ensures |r| > 0 ==> !IsTrimmable(r[0])
  {
    if |s| > 0 && IsTrimmable(s[0]) then TrimStart(s[1..]) else s
  }

  /** `s` without its trailing trimmable characters. */
  function TrimEnd(s: string): (r: string)
    ensures |r| <= |s| && r == s[..|r|]
    ensures forall k :: |r| <= k < |s| ==> IsTrimmable(s[k])
    ensures |r| > 0 ==> !IsTrimmable(r[|r| - 1])
  {
    if |s| > 0 && IsTrimmable(s[|s| - 1]) then TrimEnd(s[..|s| - 1]) else s
  }

  /** How many trimmable characters `s` starts with. */
  function LeadingBlanks(s: string): (n: nat)
    ensures n <= |s|
  {
    |s| - |TrimStart(s)|
  }

  /**
   * `s.trim()`: the longest infix of `s` that neither starts nor ends with a trimmable character; everything
   * cut off on either side is trimmable.
   */
  function Trim(s: string): (r: string)
    ensures IsTrimmed(r)
    ensures LeadingBlanks(s) + |r| <= |s| && r == s[LeadingBlanks(s)..LeadingBlanks(s) + |r|]
    ensures forall k :: 0 <= k < LeadingBlanks(s) ==> IsTrimmable(s[k])
    ensures forall k :: LeadingBlanks(s) + |r| <= k < |s| ==> IsTrimmable(s[k])
  {
    TrimEnd(TrimStart(s))
  }

  /** A string with no trimmable character at either end is its own trim. */
  lemma TrimFixesTrimmed(s: string)
    requires IsTrimmed(s)
    ensures Trim(s) == s
  {
    assert TrimStart(s) == s;
    assert TrimEnd(s) == s;
  }

  /** Trimming twice is trimming once. */
  lemma TrimIdempotent(s: string)
    ensures Trim(Trim(s)) == Trim(s)
  {
    TrimFixesTrimmed(Trim(s));
  }

  /** A string made only of trimmable characters trims to the empty string, and only such a string does. */
  lemma TrimEmptyIffBlank(s: string)
    ensures Trim(s) == "" <==> forall k :: 0 <= k < |s| ==> IsTrimmable(s[k])
  {
  }
}

=== FILE: targets.dfy ===
/**
 * What the two revalidation routes share: reading the single and the list field out of the JSON payload,
 * normalising the collected targets (trim, drop empties, keep each first occurrence), and the shape of
 * their responses and cache-invalidation events.
 */
module Targets {
  import opened Wrappers
  import opened Json
  import opened Strings

  /** The body of the 400 answer for a payload that is not valid JSON or cannot be read. */
  const InvalidJsonMessage: string := "Invalid JSON payload."

  /** An HTTP answer: status code and JSON body. */
  datatype Response = Response(status: int, body: Json)

  /** One call into the framework's cache: `revalidatePath(path, type)` or `revalidateTag(tag, profile)`. */
  datatype Invalidation =
    | PathRevalidated(path: string, kind: Option<Json>)
    | TagRevalidated(tag: string, profile: string)

  /** What a POST produces: the answer, and the invalidations performed before it, in order. */
  datatype Handled = Handled(response: Response, events: seq<Invalidation>)

  /** `{ success: false, message }` with status 400. */
  function BadRequest(message: string): (r: Response)
    ensures r.status == 400 && r.body.JObj?
    ensures "success" in r.body.fields && r.body.fields["success"] == JBool(false)
    ensures "message" in r.body.fields && r.body.fields["message"] == JStr(message)
  {
    Response(400, JObj(map["success" := JBool(false), "message" := JStr(message)]))
  }

  /** No string occurs twice. */
  predicate Distinct(xs: seq<string>) {
    forall i, j :: 0 <= i < j < |xs| ==> xs[i] != xs[j]
  }

  /** The strings of a list of strings as a JSON array. */
  function StringArray(xs: seq<string>): (r: Json)
    ensures r.JArr? && |r.items| == |xs|
    ensures forall i :: 0 <= i < |xs| ==> r.items[i] == JStr(xs[i])
  {
    JArr(seq(|xs|, i requires 0 <= i < |xs| => JStr(xs[i])))
  }

  /** The string entries of a JSON array, in order (`filter(x => typeof x === 'string')`). */
  function StringsOf(items: seq<Json>): (r: seq<string>)
    ensures forall s :: s in r <==> JStr(s) in items
    ensures |r| <= |items|
  {
    if items == [] then []
    else (if items[0].JStr? then [items[0].s] else []) + StringsOf(items[1..])
  }

  /** Filtering commutes with concatenation, so the kept strings stay in their original order. */
  lemma {:induction false} StringsOfConcat(a: seq<Json>, b: seq<Json>)
    ensures StringsOf(a + b) == StringsOf(a) + StringsOf(b)
  {
    if a != [] {
      assert (a + b)[1..] == a[1..] + b;
      StringsOfConcat(a[1..], b);
    } else {
      assert a + b == b;
    }
  }

  /**
   * The raw targets of a payload: the `single` field when it is a string, then the string entries of the
   * `multiple` field when it is an array; anything else contributes nothing. Reading a field of `null`
   * throws.
   */
  function Collect(payload: Json, single: string, multiple: string): (r: Result<seq<string>, TypeError>)
    ensures r.Failure? <==> payload.JNull?
    ensures r.Success? ==> forall s :: s in r.value <==>
      || Property(payload, single) == Success(Some(JStr(s)))
      || (Property(payload, multiple).Success? && Property(payload, multiple).value.Some?
          && Property(payload, multiple).value.value.JArr?
          && JStr(s) in Property(payload, multiple).value.value.items)
    ensures payload.JObj? && single in payload.fields && payload.fields[single].JStr? ==>
      r.Success? && |r.value| > 0 && r.value[0] == payload.fields[single].s
    ensures !payload.JNull? ==> r == Success(
      (if payload.JObj? && single in payload.fields && payload.fields[single].JStr?
       then [payload.fields[single].s] else [])
      + (if payload.JObj? && multiple in payload.fields && payload.fields[multiple].JArr?
         then StringsOf(payload.fields[multiple].items) else []))
  {
    match Property(payload, single)
    case Failure(e) => Failure(e)
    case Success(one) =>
      var many := Property(payload, multiple).value;
      var head := if one.Some? && one.value.JStr? then [one.value.s] else [];
      var tail := if many.Some? && many.value.JArr? then StringsOf(many.value.items) else [];
      Success(head + tail)
  }

  /** `all.indexOf(x)`: the first position of `x` in `all`, or -1 when it does not occur. */
  function IndexOf(all: seq<string>, x: string): (r: int)
    ensures -1 <= r < |all|
    ensures r >= 0 ==> all[r] == x && x !in all[..r]
    ensures r == -1 <==> x !in all
  {
    if |all| == 0 then -1
    else if all[0] == x then 0
    else
      var k := IndexOf(all[1..], x);
      assert k >= 0 ==> all[..k + 1] == [all[0]] + all[1..][..k];
      if k < 0 then -1 else k + 1
  }

  /** An entry among the first `n` has its first occurrence among them too. */
  lemma IndexOfInPrefix(all: seq<string>, x: string, n: nat)
    requires n <= |all| && x in all[..n]
    ensures 0 <= IndexOf(all, x) < n
  {
  }

  /** Whether the filter keeps position `i`: a non-empty entry at its first occurrence. */
  predicate KeptAt(all: seq<string>, i: nat)
    requires i < |all|
  {
    |all[i]| > 0 && IndexOf(all, all[i]) == i
  }

  /** `filter((x, i, all) => x.length > 0 && all.indexOf(x) === i)` applied to the first `n` entries. */
  function FirstOccurrences(all: seq<string>, n: nat): (r: seq<string>)
    requires n <= |all|
    ensures |r| <= n
  {
    if n == 0 then []
    else FirstOccurrences(all, n - 1) + (if KeptAt(all, n - 1) then [all[n - 1]] else [])
  }

  /**
   * The filter keeps exactly the non-empty entries, each once, ordered by where each first occurs.
   */
  lemma {:induction false} FirstOccurrencesSpec(all: seq<string>, n: nat)
    requires n <= |all|
    ensures forall x :: x in FirstOccurrences(all, n) <==> |x| > 0 && x in all[..n]
    ensures Distinct(FirstOccurrences(all, n))
    ensures forall i, j :: 0 <= i < j < |FirstOccurrences(all, n)| ==>
      IndexOf(all, FirstOccurrences(all, n)[i]) < IndexOf(all, FirstOccurrences(all, n)[j])
  {
    if n > 0 {
      FirstOccurrencesSpec(all, n - 1);
      var prev := FirstOccurrences(all, n - 1);
      var x := all[n - 1];
      assert all[..n] == all[..n - 1] + [x];
      forall y | y in prev
        ensures 0 <= IndexOf(all, y) < n - 1
      {
        IndexOfInPrefix(all, y, n - 1);
      }
      if KeptAt(all, n - 1) {
        assert x !in all[..n - 1];
        assert x !in prev;
      } else if |x| > 0 {
        var k := IndexOf(all, x);
        assert k < n - 1;
        assert x in all[..n - 1] by { assert all[..n - 1][k] == x; }
      }
    }
  }

  /** On a list of distinct non-empty entries the filter keeps everything. */
  lemma {:induction false} FirstOccurrencesOfDistinct(all: seq<string>, n: nat)
    requires n <= |all|
    requires Distinct(all)
    requires forall i :: 0 <= i < |all| ==> |all[i]| > 0
    ensures FirstOccurrences(all, n) == all[..n]
  {
    if n > 0 {
      FirstOccurrencesOfDistinct(all, n - 1);
      assert IndexOf(all, all[n - 1]) == n - 1;
      assert all[..n] == all[..n - 1] + [all[n - 1]];
    }
  }

  /** Every raw entry trimmed (`map(x => x.trim())`). */
  function TrimAll(raw: seq<string>): (t: seq<string>)
    ensures |t| == |raw|
    ensures forall i :: 0 <= i < |raw| ==> t[i] == Trim(raw[i])
  {
    seq(|raw|, i requires 0 <= i < |raw| => Trim(raw[i]))
  }

  /**
   * The normalised target list: every entry is the non-empty trim of some raw entry, every raw entry
   * whose trim is non-empty is present, nothing occurs twice, and the entries are ordered by the
   * position where their trimmed form first occurs.
   */
  function Normalize(raw: seq<string>): (r: seq<string>)
    ensures forall x :: x in r ==> |x| > 0 && IsTrimmed(x) && exists i :: 0 <= i < |raw| && Trim(raw[i]) == x
    ensures forall i :: 0 <= i < |raw| && |Trim(raw[i])| > 0 ==> Trim(raw[i]) in r
    ensures Distinct(r)
    ensures forall i, j :: 0 <= i < j < |r| ==> IndexOf(TrimAll(raw), r[i]) < IndexOf(TrimAll(raw), r[j])
  {
    var all := TrimAll(raw);
    FirstOccurrencesSpec(all, |all|);
    assert all[..|all|] == all;
    var r := FirstOccurrences(all, |all|);
    assert forall x :: x in r ==> exists i :: 0 <= i < |all| && all[i] == x;
    r
  }

  /** Normalising an already normalised list returns it unchanged. */
  lemma NormalizeIdempotent(raw: seq<string>)
    ensures Normalize(Normalize(raw)) == Normalize(raw)
  {
    var r := Normalize(raw);
    forall i | 0 <= i < |r|
      ensures Trim(r[i]) == r[i]
    {
      assert r[i] in r;
      TrimFixesTrimmed(r[i]);
    }
    assert TrimAll(r) == r;
    FirstOccurrencesOfDistinct(r, |r|);
    assert r[..|r|] == r;
  }

  /** A list without repetitions holds each of its entries exactly once. */
  lemma {:induction false} DistinctCountsOnce(xs: seq<string>, x: string)
    requires Distinct(xs)
    requires x in xs
    ensures multiset(xs)[x] == 1
  {
    if xs[0] == x {
      assert xs == [x] + xs[1..];
      assert x !in xs[1..];
    } else {
      assert xs == [xs[0]] + xs[1..];
      DistinctCountsOnce(xs[1..], x);
    }
  }
}

=== FILE: toolbar.dfy ===
/** The pure decisions inside the flags toolbar: which control a flag gets and what it shows. */
module Toolbar {
  import opened Wrappers
  import opened Json

  /** An option as the definitions endpoint sends it; the caption is the optional label. */
  datatype OptionMeta = OptionMeta(value: Json, caption: Option<string>)

  /** A flag's metadata as the definitions endpoint sends it; every field but the key may be missing. */
  datatype FlagMetadata = FlagMetadata(
    key: string,
    description: Option<string>,
    options: Option<seq<OptionMeta>>,
    defaultValue: Option<Json>)

  /** The control drawn for a flag: a checkbox with its state text, a dropdown with its selected index, or nothing. */
  datatype Control = Toggle(checked: bool, stateText: string) | Dropdown(selected: nat) | NoControl

  /**
   * `overrides[flagKey] ?? metadata.defaultValue`: the override unless it is missing or `null`, in which
   * case the default, itself possibly `undefined`.
   */
  function CurrentValue(overrides: Object, key: string, meta: FlagMetadata): (v: Option<Json>)
    ensures key in overrides && overrides[key] != JNull ==> v == Some(overrides[key])
    ensures key !in overrides || overrides[key] == JNull ==> v == meta.defaultValue
  {
    if key in overrides && overrides[key] != JNull then Some(overrides[key]) else meta.defaultValue
  }

  /** `metadata.options ?? []`: the options sent, and none when the field is missing. */
  function OptionsOf(meta: FlagMetadata): (r: seq<OptionMeta>)
    ensures meta.options.Some? ==> r == meta.options.value
    ensures meta.options.None? ==> r == []
  {
    meta.options.GetOr([])
  }

  /** Exactly two options, and every option's value is a boolean. */
  predicate IsBooleanToggle(options: seq<OptionMeta>) {
    |options| == 2 && forall i :: 0 <= i < |options| ==> options[i].value.JBool?
  }

  /**
   * A boolean toggle offers two boolean values, and when they differ they are `true` and `false` in some
   * order, so the checkbox can reach each of them.
   */
  lemma BooleanToggleValues(options: seq<OptionMeta>)
    requires IsBooleanToggle(options)
    ensures |options| == 2 && options[0].value.JBool? && options[1].value.JBool?
    ensures options[0].value != options[1].value ==>
      {options[0].value, options[1].value} == {JBool(true), JBool(false)}
  {
  }

  /** `options.findIndex(option => option.value === current)`, -1 when no option matches. */
  function FindOption(options: seq<OptionMeta>, current: Option<Json>): (k: int)
    ensures -1 <= k < |options|
    ensures k >= 0 ==> StrictEquals(Some(options[k].value), current)
    ensures k >= 0 ==> forall j :: 0 <= j < k ==> !StrictEquals(Some(options[j].value), current)
    ensures k == -1 <==> forall j :: 0 <= j < |options| ==> !StrictEquals(Some(options[j].value), current)
  {
    if options == [] then -1
    else if StrictEquals(Some(options[0].value), current) then 0
    else
      var k := FindOption(options[1..], current);
      if k < 0 then -1 else k + 1
  }

  /**
   * The dropdown's selected index: the first option strictly equal to the current value, or 0 when none
   * matches.
   */
  function SelectedIndex(options: seq<OptionMeta>, current: Option<Json>): (i: nat)
    requires |options| > 0
    ensures i < |options|
    ensures (exists j :: 0 <= j < |options| && StrictEquals(Some(options[j].value), current)) ==>
      StrictEquals(Some(options[i].value), current)
      && forall j :: 0 <= j < i ==> !StrictEquals(Some(options[j].value), current)
    ensures (forall j :: 0 <= j < |options| ==> !StrictEquals(Some(options[j].value), current)) ==> i == 0
  {
    var k := FindOption(options, current);
    if k >= 0 then k else 0
  }

  /**
   * `renderControl`: a toggle exactly for two boolean options, checked exactly when the current value is
   * `true` and labelled by its truthiness; a dropdown exactly for any other non-empty option list,
   * selecting the current value's option; and no control exactly when options are missing or empty.
   */
  function RenderControl(overrides: Object, key: string, meta: FlagMetadata): (c: Control)
    ensures c.Toggle? <==> IsBooleanToggle(OptionsOf(meta))
    ensures c.Dropdown? <==> |OptionsOf(meta)| > 0 && !IsBooleanToggle(OptionsOf(meta))
    ensures c.NoControl? <==> |OptionsOf(meta)| == 0
    ensures c.Toggle? ==> (c.checked <==> CurrentValue(overrides, key, meta) == Some(JBool(true)))
    ensures c.Toggle? ==> c.stateText == (if Truthy(CurrentValue(overrides, key, meta)) then "Enabled" else "Disabled")
    ensures c.Dropdown? ==> c.selected == SelectedIndex(OptionsOf(meta), CurrentValue(overrides, key, meta))
  {
    var current := CurrentValue(overrides, key, meta);
    var options := OptionsOf(meta);
    if IsBooleanToggle(options) then
      Toggle(current == Some(JBool(true)), if Truthy(current) then "Enabled" else "Disabled")
    else if |options| > 0 then
      Dropdown(SelectedIndex(options, current))
    else
      NoControl
  }

  /** The option value behind a dropdown index, or nothing when no option has that index. */
  function ChosenValue(options: seq<OptionMeta>, index: int): (r: Option<Json>)
    ensures r.Some? <==> 0 <= index < |options|
    ensures r.Some? ==> r.value == options[index].value
  {
    if 0 <= index < |options| then Some(options[index].value) else None
  }

  /** `{ ...overrides, [key]: value }`: the changed key takes the new value and every other override stays. */
  function LocalChange(overrides: Object, key: string, value: Json): (r: Object)
    ensures key in r && r[key] == value
    ensures forall k :: k != key ==> (k in r <==> k in overrides) && (k in overrides ==> r[k] == overrides[k])
  {
    overrides[key := value]
  }

  /** The body the toolbar posts for a change: `{ [key]: value }`. */
  function ChangeRequest(key: string, value: Json): (body: Json)
    ensures body.JObj? && body.fields.Keys == {key} && body.fields[key] == value
  {
    JObj(map[key := value])
  }

  /** The dropdown's `onChange` on the local overrides: an index with no option changes nothing. */
  function OnSelect(overrides: Object, key: string, options: seq<OptionMeta>, index: int): (r: Object)
    ensures !(0 <= index < |options|) ==> r == overrides
    ensures 0 <= index < |options| ==> r == LocalChange(overrides, key, options[index].value)
  {
    match ChosenValue(options, index)
    case None => overrides
    case Some(v) => LocalChange(overrides, key, v)
  }

  /** The checkbox's `onChange` on the local overrides: the key takes the checkbox's new state. */
  function OnToggle(overrides: Object, key: string, checked: bool): (r: Object)
    ensures key in r && r[key] == JBool(checked)
    ensures forall k :: k != key ==> (k in r <==> k in overrides) && (k in overrides ==> r[k] == overrides[k])
  {
    LocalChange(overrides, key, JBool(checked))
  }

  /** The reset button is enabled exactly when nothing is loading and some override is set. */
  function ResetEnabled(isLoading: bool, overrides: Object): (enabled: bool)
    ensures enabled <==> !isLoading && exists k :: k in overrides
  {
    !isLoading && |overrides| > 0
  }

  /** Flipping a toggle and rendering again shows the new state. */
  lemma ToggleRoundTrip(overrides: Object, key: string, meta: FlagMetadata, checked: bool)
    requires IsBooleanToggle(OptionsOf(meta))
    ensures RenderControl(OnToggle(overrides, key, checked), key, meta)
      == Toggle(checked, if checked then "Enabled" else "Disabled")
  {
  }

  /** No two options carry strictly equal values. */
  predicate DistinctOptionValues(options: seq<OptionMeta>) {
    forall i, j :: 0 <= i < j < |options| ==> !StrictEquals(Some(options[i].value), Some(options[j].value))
  }

  /**
   * Choosing dropdown entry `index` and rendering again selects that entry, provided its value is a
   * string, number or boolean and no earlier option has the same value. For an array or object option
   * the component keeps the option's own reference, which `===` matches; `StrictEquals` does not model
   * references, so that case is not covered.
   */
  lemma SelectRoundTrip(overrides: Object, key: string, meta: FlagMetadata, index: int)
    requires |OptionsOf(meta)| > 0 && !IsBooleanToggle(OptionsOf(meta))
    requires 0 <= index < |OptionsOf(meta)|
    requires OptionsOf(meta)[index].value.JBool? || OptionsOf(meta)[index].value.JNum? || OptionsOf(meta)[index].value.JStr?
    requires DistinctOptionValues(OptionsOf(meta))
    ensures RenderControl(OnSelect(overrides, key, OptionsOf(meta), index), key, meta) == Dropdown(index)
  {
    var options := OptionsOf(meta);
    var after := OnSelect(overrides, key, options, index);
    var v := options[index].value;
    assert CurrentValue(after, key, meta) == Some(v);
    assert StrictEquals(Some(v), Some(v));
    forall j | 0 <= j < index
      ensures !StrictEquals(Some(options[j].value), Some(v))
    {
    }
  }
}

=== FILE: wrappers.dfy ===
/** Option and Result, the two shapes this model uses for "may be absent" and "may fail". */
module Wrappers {

  /** `None` stands for JavaScript's `undefined`: a missing property, a missing cookie, a failed lookup. */
  datatype Option<+T> = None | Some(value: T) {

    /** The value, or `default` when there is none (JavaScript's `?? default` on `undefined`). */
    function GetOr(default: T): (r: T)
      ensures Some? ==> r == value
      ensures None? ==> r == default
    {
      match this
      case Some(v) => v
      case None => default
    }
  }

  /** A computation that either produced a value or threw. */
  datatype Result<+T, +E> = Success(value: T) | Failure(error: E)
}
